=== FILE: README.md ===
# SSH key manager: a verified model of `SSHKeyManager`

`manage_keys.py` keeps an inventory of SSH public keys in a git repository. It stores the key lines in
`authorized_keys` and per-key metadata (alias, expiry date, date added) in `key_aliases.json`,
keyed by each key's display name. Its menu captures the public keys of the current machine into
the inventory. It deploys chosen inventory keys into `~/.ssh/authorized_keys`. It also lists,
searches and deletes keys and sets aliases and expiry dates. Before it starts, it asks GitHub
whether the repository is public.

This project models that core in Dafny:

- `KeyLine`: a key line's display name, its identity (type and material) and the search for an
  existing key.
- `KeyFile`: how `load_keys` reads a file and `save_keys` writes one, with the save/load round trip.
- `KeyStore`: the in-memory inventory and its two metadata shapes. A metadata entry is a record,
  or the bare string `set_alias` stores.
- `Selection` and `Numerals`: the menu selections ("all", comma-separated 1-based numbers) and
  Python's `int()`/`str()` on them.
- `Search`: the `list_keys` filter and numbering.
- `Capture`, `Deploy`, `Deletion`: the loops of `capture_keys`, `deploy_keys` and `delete_keys`,
  each as a specification function with its properties proved.
- `RepoUrl`: the rewrite of the `origin` remote into the GitHub API address.
- `Manager`: the class `KeyManager`, which holds the fields the program updates in place
  (`keys`, `aliases`, the files it writes). Its methods run the same loops step by step and are
  proved equal to the specification functions.

The user's answers to `input()` are method parameters. Exceptions the program does not catch end
it; such an operation reports this in its outcome and changes nothing after the failing point.

## Model

| member | source | states |
|---|---|---|
| KeyLine.KeyName | manage_keys.py:157-160 | the name is the last whitespace-separated field of a line with more than two fields, and "Unknown" otherwise |
| KeyLine.KeyParts | manage_keys.py:162-167 | the identity exists exactly when the line has at least two fields, and is then its first two fields |
| KeyLine.KeyLineFields | manage_keys.py:157-167 | for `type material comment`, the identity is the first two fields and the name is the comment's last word, or "Unknown" |
| KeyLine.CommentDoesNotChangeIdentity | manage_keys.py:162-167 | two lines that differ only in their comment have the same identity |
| KeyLine.MatchFrom | manage_keys.py:175-179 | the found index has the identity and no earlier one has it; no index at all when none matches |
| KeyLine.FirstMatch | manage_keys.py:169-179 | `find_existing_key` answers the least index with the candidate's identity, and nothing for a candidate without one |
| KeyLine.FirstMatchUnique | manage_keys.py:169-179 | any index that is the first with the candidate's identity is the answer |
| Manager.KeyManager.FindExistingKey | manage_keys.py:169-179 | the loop returns exactly `FirstMatch` of the inventory |
| KeyFile.StrippedNonBlank | manage_keys.py:70-71 | the lines kept are non-empty, stripped and free of line breaks, and there are no more of them than input lines |
| KeyFile.LoadLines | manage_keys.py:64-71 | every key loaded from any text is a canonical line |
| KeyFile.StrippedNonBlankConcat | manage_keys.py:70-71 | loading two line lists one after the other is loading their concatenation |
| KeyFile.LoadConcat | manage_keys.py:70-71 | text that ends on a line boundary followed by more text loads as the two parts, one after the other |
| KeyFile.LoadAppendText | manage_keys.py:308-311 | loading the appended `key + '\n'` lines gives back exactly those keys |
| KeyFile.SaveLoadRoundTrip | manage_keys.py:64-77 | loading what `save_keys` writes returns the same canonical keys; an empty list is written as a lone line break |
| KeyFile.Serialize | manage_keys.py:77 | the text ends on a line break, and when no key holds one, its lines are exactly the keys (a lone empty line for none) followed by the empty piece after the final break |
| KeyFile.ReloadIsStable | manage_keys.py:64-77 | saving loaded keys and loading again reads the same keys |
| KeyStore.RemoveAt | manage_keys.py:235 | `del keys[i]` shortens the list by one and shifts the later entries down |
| KeyStore.RemoveAtMultiset | manage_keys.py:235 | `del keys[i]` removes exactly one copy of the entry at `i` |
| KeyStore.ShownAlias | manage_keys.py:106 | reading the alias fails exactly on a bare-string entry; it is "" for a missing name, and the record's alias or "" for a record |
| KeyStore.NewRecord | manage_keys.py:237-249 | the new record holds the stamp, and holds the stripped alias and expiry exactly when they are not blank |
| KeyStore.SetExpiryOn | manage_keys.py:129-133 | a bare-string entry rejects the date; otherwise only that name's entry changes, its expiry becomes the date and its alias and added date are kept |
| KeyStore.SetExpiryLastWins | manage_keys.py:123-135 | setting an expiry twice equals setting only the second date |
| KeyStore.ListingCrashes | manage_keys.py:264-268 | a listing with aliases raises exactly when some key's name maps to a bare string |
| KeyStore.BareAliasBreaksListing | manage_keys.py:374 | after the alias is stored as a bare string, every listing that reads the alias with `.get('alias')` (list, deploy, delete) raises |
| KeyStore.SetAliasOn | manage_keys.py:371-374 | the intended update: the name holds a record whose alias is the new one, its other items are kept, and other names are unchanged |
| KeyStore.SetAliasOnKeepsListing | manage_keys.py:371-374 | with the intended update, a listing that did not raise still does not, and it shows the new alias |
| Manager.KeyManager.SetExpiry | manage_keys.py:123-135 | an index out of range changes nothing; otherwise the metadata becomes `SetExpiryOn` of it and is saved, or stays unchanged when the entry is a bare string |
| Manager.KeyManager.SetAlias | manage_keys.py:355-378 | non-number, out-of-range and blank answers change nothing; otherwise the bare alias replaces the name's entry, nothing is saved, and the `.get('alias')` listings (list, deploy, delete) now raise |
| Search.VisitKeyMeaning | manage_keys.py:104-112 | a key is hidden exactly when its metadata reads and the filter rejects it, and shown exactly when the filter keeps it and it has a type field |
| Search.SearchKeeps | manage_keys.py:106 | a key is kept exactly when the term is empty or, lower-cased, occurs at some position of the lower-cased name or alias |
| Search.VisitKey | manage_keys.py:104-112 | a visit raises exactly when the name's entry is a bare string, or the key is kept but has no type field |
| Search.Visits | manage_keys.py:104 | one verdict per key |
| Search.VisitsAt | manage_keys.py:104-112 | the verdict at position `i` is that of the key at `i` |
| Search.ListFromProperties | manage_keys.py:104-114 | the printed numbers are increasing positions; a complete listing shows exactly the kept keys; the listing raises exactly when some key's visit raises |
| Search.ListFromStep | manage_keys.py:104-114 | one visit: a raise ends the listing, a hidden key adds nothing, a shown key adds its own number |
| Search.NumbersFrom | manage_keys.py:104 | the numbers `from+1 .. last`, in order |
| Search.AllShownListsAll | manage_keys.py:104-114 | when every key is shown, every key is numbered by its position |
| Search.EmptySearchListsAll | manage_keys.py:95-121 | with no search term, when every key has a field and no name holds a bare string, every key is listed under its 1-based position |
| Search.SearchIgnoresCase | manage_keys.py:106 | search terms that lower-case alike filter alike |
| Search.NameMatchKeeps | manage_keys.py:106 | a term that occurs anywhere in the name, in any case, keeps the key whatever the alias |
| Search.ListKeysSpec | manage_keys.py:95-121 | every number printed is a 1-based position of the inventory, and the listing raises exactly when the visit of some key raises |
| Manager.KeyManager.ListKeys | manage_keys.py:95-121 | the loop's listing equals `ListKeysSpec`, whose properties are proved above |
| Manager.KeyManager.VisitAt | manage_keys.py:104-112 | one pass of the listing loop gives the key's verdict |
| Manager.KeyManager.ListingRaises | manage_keys.py:264-268 | listing the keys with their aliases raises exactly when some name holds a bare string |
| Selection.ParseIndices | manage_keys.py:212 | the pieces parse exactly when each piece is an integer, giving that integer minus one per piece |
| Selection.ParseSelection | manage_keys.py:203-215 | a blank line is recognised as blank and nothing else is; a list of numbers has one entry per comma piece, each the piece's integer minus one |
| Selection.ParseAll | manage_keys.py:208 | "all" in any case, with surrounding whitespace, selects everything |
| Selection.Range | manage_keys.py:209 | `range(n)` is `0 .. n-1`, ascending |
| Selection.FormatSelectionShape | manage_keys.py:203-212 | a typed list of numbers is already stripped, is not blank and is not "all" |
| Selection.SelectionRoundTrip | manage_keys.py:203-215 | typing the 1-based numbers of any non-empty list of positions selects exactly those positions, in order and with repeats |
| Numerals.ParseInt | manage_keys.py:212 | an accepted text ends in a digit, a negative value was written with a leading minus, and a run of digits is read as its decimal value |
| Numerals.NatToString | manage_keys.py:212 | a natural number's numeral is a non-empty run of digits |
| Numerals.NatToStringValue | manage_keys.py:212 | the numeral's digits denote the number |
| Numerals.ParseIntRoundTrip | manage_keys.py:212 | `int(str(i)) == i` for every integer |
| Manager.PlanCapture | manage_keys.py:194-215 | a halt reports no capture; the loop runs only with system keys and at least one index; "all" visits every system key in order |
| Capture.CaptureKey | manage_keys.py:217-251 | a pass adds nothing exactly when the identity is held and the answer is not "y"; otherwise the key ends the list and its name holds the new record |
| Capture.CaptureNew | manage_keys.py:217-251 | a new identity is appended, and all other names' metadata is kept |
| Capture.CaptureAccept | manage_keys.py:222-251 | an accepted overwrite deletes the first matching line, keeping the others in order, and appends the new key (so the size is kept and one copy of the old line is swapped for the key); drops the old name's metadata and keeps all other metadata |
| Capture.CaptureKeepsIdentitiesDistinct | manage_keys.py:217-251 | a capture pass never makes two lines share an identity |
| Capture.AppendKeepsDistinct | manage_keys.py:249-250 | appending an absent identity keeps identities distinct |
| Capture.ReplaceKeepsDistinct | manage_keys.py:233-250 | removing the matching line and appending keeps identities distinct |
| Capture.CaptureFrom | manage_keys.py:217-251 | a run reports at most one added name per pass |
| Capture.CaptureFromAddsOnlyWhatItReports | manage_keys.py:217-254 | each pass adds at most one name, and a run that adds nothing leaves the inventory as it was |
| Capture.CaptureFromKeepsIdentitiesDistinct | manage_keys.py:217-251 | whatever the answers, the loop never duplicates an identity |
| Capture.CaptureAllDeclined | manage_keys.py:217-254 | when every selected key is already held and every overwrite is declined, nothing is added or changed |
| Manager.KeyManager.CaptureKeys | manage_keys.py:192-256 | a blank, invalid or empty choice changes nothing; otherwise the inventory becomes the loop's result, identities stay distinct when they were distinct before, and it is saved exactly when something was added and `authorized_keys` exists; a run that is not saved leaves the key file, the metadata file and the backups as they were |
| Manager.KeyManager.CaptureLoop | manage_keys.py:217-251 | the loop's inventory and added names equal `CaptureFrom` |
| Manager.KeyManager.CaptureOne | manage_keys.py:218-251 | one pass adds the key exactly when `CaptureKey` accepts it, and leaves the inventory unchanged otherwise |
| Manager.KeyManager.CaptureSkip | manage_keys.py:218-230 | a skipped pass does not change the run |
| Manager.KeyManager.CaptureStep | manage_keys.py:232-251 | an accepted pass adds its key's name to the run |
| Deploy.Picks | manage_keys.py:289 | no more keys are picked than numbers typed |
| Deploy.PicksFromKeys | manage_keys.py:289 | every picked key is a key of the inventory |
| Deploy.PicksOne | manage_keys.py:289 | one typed number picks its key when it is in range, and nothing otherwise |
| Deploy.PicksConcat | manage_keys.py:289 | the picks of two runs of numbers are the first run's picks then the second's, so the typed order is kept |
| Deploy.PicksInRange | manage_keys.py:289 | when every number is in range, there is one pick per number and the `k`-th pick is the key at the `k`-th number |
| Deploy.PicksStep | manage_keys.py:289 | one more number picks its key if it is in range, and nothing otherwise |
| Manager.KeyManager.PickKeys | manage_keys.py:289 | the loop picks exactly `Picks` |
| Deploy.KeysToAdd | manage_keys.py:303 | each key is kept with all its repeats when the target lacks it, and dropped otherwise |
| Deploy.KeysToAddOne | manage_keys.py:303 | a single selected key is kept exactly when the target lacks it |
| Deploy.KeysToAddConcat | manage_keys.py:303 | filtering two runs of selected keys is filtering the first then the second, so the selection order is kept |
| Deploy.KeysToAddStep | manage_keys.py:303 | one more selected key is kept exactly when the target lacks it |
| Manager.FilterNew | manage_keys.py:303 | the loop computes exactly `KeysToAdd` |
| Manager.AppendKeys | manage_keys.py:308-311 | the loop appends each key followed by a line break |
| Deploy.Verify | manage_keys.py:324-332 | every appended key gets exactly one verdict |
| Deploy.VerifyPartition | manage_keys.py:324-332 | the verdict splits the appended keys, with repeats, into those found on reading back and those not |
| Deploy.VerifyCounts | manage_keys.py:324-332 | succeeded and failed together are the appended keys, as a multiset |
| Deploy.VerifySorts | manage_keys.py:324-332 | every succeeded key is in the target and no failed one is |
| Deploy.VerifyStep | manage_keys.py:327-332 | one more key joins succeeded or failed by whether the target holds it |
| Deploy.VerifyAllFound | manage_keys.py:324-332 | keys that are all found all succeed, in order |
| Manager.CheckDeployed | manage_keys.py:324-332 | the loop computes exactly the verdict `Verify` |
| Deploy.Deployment | manage_keys.py:308-332 | the target becomes its old text followed by each key and a line break; the appended keys split into succeeded ones, which reading back finds, and failed ones, which it does not |
| Deploy.DeployedAppendsMissing | manage_keys.py:284-332 | a deploy that writes has appended exactly the selected keys the target lacked |
| Deploy.SelectedCanonical | manage_keys.py:284-289 | the selected keys of a loaded inventory are canonical lines |
| Deploy.KeysToAddCanonical | manage_keys.py:303 | filtering keeps lines canonical |
| Deploy.AppendReadsBack | manage_keys.py:308-322 | after appending to a well-terminated target, reading it gives its old lines and then exactly the appended keys |
| Deploy.NothingToAdd | manage_keys.py:303-306 | selected keys the target already holds leave nothing to add |
| Deploy.AppendCoversSelection | manage_keys.py:303-311 | after the append, every selected key is an old line or an appended one |
| Deploy.FoundAfterAppend | manage_keys.py:322-332 | keys read back after the old lines are all reported deployed, in order |
| Deploy.DeploymentSucceeds | manage_keys.py:308-332 | on a well-terminated target, every appended key is reported deployed and none failed |
| Deploy.DeploySpec | manage_keys.py:258-353 | an empty inventory and only that reports no keys; a deploy that reaches the target follows a listing that did not raise; a deploy that writes appends a non-empty list after the old text and splits it into succeeded and failed, as a multiset |
| Deploy.DeploySucceeds | manage_keys.py:258-353 | a deploy to a well-terminated target reports every appended key as deployed |
| Deploy.DeployIdempotent | manage_keys.py:294-306 | when the inventory's keys are canonical lines and the target is missing or ends on a line break, deploying the same selection again right after a deploy reports that all keys are already deployed |
| Deploy.RepeatedPickAppendsTwice | manage_keys.py:288-303 | "k,k" picks the key twice, and a key the target lacks is appended twice |
| Deploy.UnterminatedTargetGluesLines | manage_keys.py:309-311 | appending to a target whose last line has no line break glues the key onto that line: reading back gives the earlier lines and then the glued line, so the old last line and the key are found only where an earlier line holds them |
| Deploy.UnterminatedDeploymentFails | manage_keys.py:308-332 | as written, a key deployed to such a target, and held by none of its earlier lines, is written onto its last line and reported failed |
| Deploy.AppendOnNewLine | manage_keys.py:308-311 | the intended append always leaves the target ending on a line break |
| Deploy.AppendOnNewLineReadsBack | manage_keys.py:308-322 | with the intended append, reading back gives the old lines and then every appended key, on any target |
| Deploy.IntendedDeployment | manage_keys.py:308-332 | the intended deployment writes `AppendOnNewLine`; the appended keys split into those reading back finds and those it does not |
| Deploy.IntendedDeploymentSucceeds | manage_keys.py:308-332 | with the intended append, every key is reported deployed, on any target |
| Manager.KeyManager.DeployKeys | manage_keys.py:258-353 | the method's outcome equals `DeploySpec` |
| Deletion.DeleteAt | manage_keys.py:433-438 | an index in range removes exactly the line at it, as `del`, and the metadata under its name; an index out of range changes nothing |
| Deletion.DeleteFrom | manage_keys.py:432-438 | a run removes at most one line per index it is fed |
| Deletion.DeleteFromAccounting | manage_keys.py:432-438 | each removed line shortens the list by one and takes its name's metadata; removing nothing changes nothing |
| Deletion.DeleteAtMultiset | manage_keys.py:433-438 | one pass reports exactly the line it deletes: the reported and the remaining lines are the original ones |
| Deletion.DeleteFromRemovedLines | manage_keys.py:432-438 | the lines a run reports as removed (whose names `deleted_keys` collects) are exactly those that left the list: with the remaining lines they make up the original ones, as a multiset |
| Deletion.DescendingDeletesPositions | manage_keys.py:413-438 | distinct indices deleted from the highest down remove exactly the lines originally at those positions |
| Deletion.PositionsByParity | manage_keys.py:407-438 | the kept and deleted halves are the lines at odd and even positions |
| Deletion.SkipOutOfRange | manage_keys.py:434 | indices out of range for the current list are all skipped |
| Deletion.AscendingDeletesEvenPositions | manage_keys.py:407-438 | ascending indices keep, from each point on, only the odd positions |
| Deletion.AscendingDeletedLines | manage_keys.py:407-438 | ascending indices delete the lines at even positions |
| Deletion.DeleteAllKeepsOddPositions | manage_keys.py:398-438 | as written, "all" deletes only the ceil(n/2) lines at even positions, keeps the odd ones and drops the deleted names' metadata |
| Manager.DeleteAllPlan | manage_keys.py:398-438 | a confirmed "all" feeds `range(n)`, so only the odd positions remain |
| Deletion.RangeDown | manage_keys.py:407 | the indices `n-1 .. 0`, descending |
| Deletion.DeleteAllDescendingEmpties | manage_keys.py:398-410 | with indices fed from the highest down, "all" empties the inventory as promised |
| Deletion.InsertDesc | manage_keys.py:413 | inserting keeps the list non-increasing and adds exactly the one number |
| Deletion.SortDesc | manage_keys.py:413 | `sorted(..., reverse=True)` is non-increasing and a permutation of its input |
| Deletion.SortDescDistinct | manage_keys.py:413 | without repeats, the sorted selection is strictly descending |
| Deletion.DistinctSelectionDeletesPositions | manage_keys.py:411-438 | distinct numbers delete exactly the lines at those in-range positions, keep the rest in order, and shorten the list by their count |
| Deletion.RepeatedIndexDeletesNeighbour | manage_keys.py:413-438 | as written, a number typed twice deletes its line and the one after it |
| Deletion.DedupDesc | manage_keys.py:413 | the intended index list has no repeats and the same numbers |
| Deletion.DedupSelectionDeletesPositions | manage_keys.py:411-438 | with repeats dropped, any selection deletes exactly the lines at the selected positions |
| Deletion.SharedNameLosesMetadata | manage_keys.py:433-437 | deleting one of two keys with the same name leaves the other without metadata |
| Manager.PlanDeletion | manage_keys.py:382-429 | a halt reports no deletion; the loop runs only on a non-empty inventory whose listing did not raise, after "yes"; typed numbers are fed as a non-increasing permutation of the typed indices |
| Manager.ConfirmationRequired | manage_keys.py:404-427 | any confirmation other than "yes", in any case, stops before anything is deleted |
| Manager.KeyManager.DeleteKeys | manage_keys.py:380-446 | a halted prompt changes nothing; otherwise the inventory becomes the loop's result, which is saved exactly when something was removed and `authorized_keys` exists; a run that is not saved leaves the key file, the metadata file and the backups as they were |
| Manager.KeyManager.ChooseDeletion | manage_keys.py:386-430 | the prompts choose exactly the indices of `PlanDeletion` |
| Manager.KeyManager.DeleteLoop | manage_keys.py:432-438 | the loop's inventory and removed lines equal `DeleteFrom` |
| Manager.KeyManager.DeleteOne | manage_keys.py:433-438 | one pass changes the inventory exactly as `DeleteAt` does |
| Manager.KeyManager.DeletePass | manage_keys.py:432-438 | one pass advances the run by what it removed |
| Manager.KeysIn | manage_keys.py:64-71 | the keys read are canonical lines; a missing file has none |
| Manager.KeyManager.constructor | manage_keys.py:21-27 | starts with the keys loaded from `authorized_keys`, and the metadata from `key_aliases.json` when it decodes (empty otherwise) |
| Manager.KeyManager.LoadKeys | manage_keys.py:64-71 | the keys become those loaded from the file |
| Manager.KeyManager.LoadAliases | manage_keys.py:40-47 | metadata that decodes replaces the old; a missing or malformed file leaves it as it was |
| Manager.KeyManager.SaveAliases | manage_keys.py:49-52 | the file holds the metadata |
| Manager.KeyManager.CreateBackup | manage_keys.py:54-62 | the backup copies `authorized_keys`, and fails without change when that file is missing |
| Manager.KeyManager.SaveKeys | manage_keys.py:73-77 | backs up, writes the keys one per line and saves the metadata; reading the file back gives the same canonical keys |
| RepoUrl.AfterPrefix | manage_keys.py:588 | the text after the prefix starts the remainder of the URL |
| RepoUrl.GitHubPrefix | manage_keys.py:586-593 | the SSH or HTTPS GitHub prefix the remote starts with, or none exactly when it starts with neither |
| RepoUrl.ApiUrl | manage_keys.py:586-595 | an address is probed exactly for GitHub remotes, and always under the API base |
| RepoUrl.IsPublic | manage_keys.py:573-608 | "public" exactly when git answered, the remote is on GitHub and the probe answered 200 |
| RepoUrl.GitHubRemote | manage_keys.py:582-591 | for a GitHub remote, the prefix is recognised and the rest is the path |
| RepoUrl.ApiUrlOf | manage_keys.py:586-595 | the probed address is the API base plus the path with every ".git" deleted |
| RepoUrl.PlainPathProbed | manage_keys.py:586-595 | `<prefix><path>.git`, whose path has no dots, is probed at that path |
| RepoUrl.InnerGitDeleted | manage_keys.py:588-591 | as written, a repository named `<a>.git<b>` is probed as `<a><b>`, not under its name |
| RepoUrl.TrimGitSuffix | manage_keys.py:588-591 | the intended trim drops exactly one trailing ".git" |
| RepoUrl.ApiUrlIntended | manage_keys.py:586-595 | the intended address is probed exactly for GitHub remotes, under the API base |
| RepoUrl.IntendedKeepsPath | manage_keys.py:586-595 | the intended address probes any colon-free path under its own name, with or without ".git" |
| RepoUrl.IntendedKeepsInnerGit | manage_keys.py:586-595 | the intended address keeps `<a>.git<b>` whole |

## Left out

- Running git and curl. `check_repo_visibility` takes the remote and the probe's status text as parameters (`RepoUrl.IsPublic`). `sync_with_git` and every "sync changes?" prompt are not modelled.
- The startup public-repository warning and its `sys.exit` (lines 30-37). The constructor loads keys and metadata only.
- `get_system_keys`, `get_system_key_files`, `manage_system_keys`, `copy_to_clipboard` and the main menu. The system's keys are a parameter of `CaptureKeys`.
- JSON encoding. `key_aliases.json` is an abstract `Sidecar`: absent, malformed or a decoded map.
- The clock. The `datetime.now()` stamp is part of each capture answer. Backup file names are not modelled; a backup is the copied contents.
- Printed output other than outcomes: names, aliases, types and permissions are not modelled. The listing models only the numbers shown and whether it raised.
- `os.makedirs`, `os.chmod`, and every `OSError` path in `deploy_keys` (directory creation, read, write, chmod). `DeployKeys` assumes the file operations succeed and takes the target's text as a parameter.
- Reading a file line by line is modelled as splitting on "\n". A lone "\r" line separator and universal-newline translation are not modelled.
- `Numerals.ParseInt` models `int()` on ASCII decimal digits with an optional sign and surrounding whitespace. Underscores between digits and non-ASCII digits are not accepted.
- `Text.Strip` and `Text.Words` treat space, tab, \n, \r, \v and \f as whitespace. Python also counts the separators \x1c-\x1f and Unicode whitespace; the model does not.
- `Text.Lower` folds ASCII letters only.
- Metadata produced by JSON whose entries are neither objects nor strings (numbers, lists) is not modelled.
- Manager.KeyManager.SaveKeys: when `authorized_keys` is missing, `shutil.copy2` raises before anything is written. The method reports this as `ok == false` and leaves the state unchanged; the program would have ended.
- `KeyManager`'s methods follow the code as written. The corrected definitions named under "## Findings" are separate, proved alternatives. The class does not use them.

## Findings

| source | as written | input that shows it | evidently intended | confidence | as-written member | corrected member |
|---|---|---|---|---|---|---|
| manage_keys.py:407-438 | "all" feeds ascending indices `range(len(keys))` to a loop that deletes in place, so each deletion shifts the next key into the deleted slot | keys `[k0, k1, k2]`, answer "all" then "yes": `k0` and `k2` go, and `k1` stays | every key is deleted (iterate from the highest index down) | high, not executed | Deletion.DeleteAllKeepsOddPositions | Deletion.DeleteAllDescendingEmpties |
| manage_keys.py:413-438 | a number typed twice stays twice in the descending list, so the second pass deletes the key that slid into that position | keys `[k0, k1, k2]`, answer "1,1" then "yes": `k0` and `k1` go | each selected key is deleted once (drop repeats) | high, not executed | Deletion.RepeatedIndexDeletesNeighbour | Deletion.DedupSelectionDeletesPositions |
| manage_keys.py:588-591 | `.replace('.git', '')` deletes every ".git" in the path, not only the suffix | remote `git@github.com:octo/my.gitlab.git` is probed as `octo/mylab` | only a trailing ".git" is removed, so the probe asks about `octo/my.gitlab` | high, not executed | RepoUrl.InnerGitDeleted | RepoUrl.IntendedKeepsInnerGit |
| manage_keys.py:309-311 | the append writes `key + '\n'` right after the target's last character, even when the last line has no line break | target `ssh-ed25519 AAAA a` with no final newline: the key is glued onto that line and reported as failed | start a new line before appending | medium, not executed | Deploy.UnterminatedDeploymentFails | Deploy.IntendedDeploymentSucceeds |
| manage_keys.py:374 | `set_alias` stores the alias as a bare string in place of the metadata record; the listings of list, deploy and delete read it with `.get('alias')`, and `set_expiry` assigns an item into it | set alias "work" on key 1, then list keys: `'str' object has no attribute 'get'` | set the record's "alias" item | high, not executed | KeyStore.BareAliasBreaksListing | KeyStore.SetAliasOnKeepsListing |

=== FILE: capture.dfy ===
/**
 * The body of the capture loop (manage_keys.py:217-251): each selected system key
 * that is already in the inventory under the same identity is either skipped, when
 * the user does not answer "y", or replaces the first such entry, whose metadata is
 * dropped; the key then goes to the end of the inventory with fresh metadata under
 * its display name.
 */
module Capture {
  import opened Wrappers
  import opened Text
  import opened KeyLine
  import opened KeyStore

  /** What is typed during one pass of the loop: the y/N overwrite answer (read only
      when the key already exists), the alias and the expiry, and the clock reading
      that `datetime.now()` gives at that moment. */
  datatype CaptureAnswer = CaptureAnswer(overwrite: string, alias: string, expiry: string, clock: string)

  /** The answers of pass `j`; past the supplied ones, Enter is pressed at every prompt. */
  function AnswerAt(answers: seq<CaptureAnswer>, j: nat): CaptureAnswer {
    if j < |answers| then answers[j] else CaptureAnswer("", "", "", "")
  }

  /** `input(...).lower() == 'y'` (manage_keys.py:226-228). */
  predicate Accepts(answer: string) {
    Lower(answer) == "y"
  }

  /** One pass for the system key `key`; `None` when an existing key is kept. */
  function CaptureKey(inv: Inventory, key: string, ans: CaptureAnswer): (r: Option<Inventory>)
    ensures r.None? <==> FirstMatch(inv.keys, key).Some? && !Accepts(ans.overwrite)
    ensures r.Some? ==> r.value.keys != [] && r.value.keys[|r.value.keys| - 1] == key
    ensures r.Some? ==> KeyName(key) in r.value.aliases &&
                        r.value.aliases[KeyName(key)] == NewRecord(ans.alias, ans.expiry, ans.clock)
  {
    var name := KeyName(key);
    var meta := NewRecord(ans.alias, ans.expiry, ans.clock);
    match FirstMatch(inv.keys, key)
    case None => Some(Inventory(inv.keys + [key], inv.aliases[name := meta]))
    case Some(e) =>
      if !Accepts(ans.overwrite) then None
      else
        var oldName := KeyName(inv.keys[e]);
        Some(Inventory(RemoveAt(inv.keys, e) + [key], (inv.aliases - {oldName})[name := meta]))
  }

  /** A new identity is appended; nothing else changes but the metadata under its name. */
  lemma CaptureNew(inv: Inventory, key: string, ans: CaptureAnswer)
    requires FirstMatch(inv.keys, key).None?
    ensures CaptureKey(inv, key, ans).Some?
    ensures CaptureKey(inv, key, ans).value.keys == inv.keys + [key]
    ensures forall n :: n in inv.aliases && n != KeyName(key) ==>
              n in CaptureKey(inv, key, ans).value.aliases &&
              CaptureKey(inv, key, ans).value.aliases[n] == inv.aliases[n]
  {
  }

  /** Accepting the overwrite of the existing entry at `e` swaps that line for the new
      one, moved to the end: the inventory keeps its size, loses exactly that line and
      the metadata under its name, and keeps every other line and entry. */
  lemma CaptureAccept(inv: Inventory, key: string, ans: CaptureAnswer)
    requires FirstMatch(inv.keys, key).Some? && Accepts(ans.overwrite)
    ensures var e := FirstMatch(inv.keys, key).value;
            var r := CaptureKey(inv, key, ans);
            r.Some? &&
            |r.value.keys| == |inv.keys| &&
            multiset(r.value.keys) == multiset(inv.keys) - multiset{inv.keys[e]} + multiset{key} &&
            (KeyName(inv.keys[e]) != KeyName(key) ==> KeyName(inv.keys[e]) !in r.value.aliases) &&
            forall n :: n in inv.aliases && n != KeyName(key) && n != KeyName(inv.keys[e]) ==>
              n in r.value.aliases && r.value.aliases[n] == inv.aliases[n]
    ensures CaptureKey(inv, key, ans).value.keys == RemoveAt(inv.keys, FirstMatch(inv.keys, key).value) + [key]
  {
    var e := FirstMatch(inv.keys, key).value;
    RemoveAtMultiset(inv.keys, e);
  }

  /** No two lines of `keys` share an identity. */
  predicate DistinctIdentities(keys: seq<string>) {
    forall i, j :: 0 <= i < j < |keys| && KeyParts(keys[i]).Some? ==> KeyParts(keys[i]) != KeyParts(keys[j])
  }

  /** Capturing a key never creates a second line with an identity already present. */
  lemma CaptureKeepsIdentitiesDistinct(inv: Inventory, key: string, ans: CaptureAnswer)
    requires DistinctIdentities(inv.keys)
    requires CaptureKey(inv, key, ans).Some?
    ensures DistinctIdentities(CaptureKey(inv, key, ans).value.keys)
  {
    match FirstMatch(inv.keys, key)
    case None =>
      assert CaptureKey(inv, key, ans).value.keys == inv.keys + [key];
      AppendKeepsDistinct(inv.keys, key);
    case Some(e) =>
      assert CaptureKey(inv, key, ans).value.keys == RemoveAt(inv.keys, e) + [key];
      ReplaceKeepsDistinct(inv.keys, e, key);
  }

  lemma AppendKeepsDistinct(keys: seq<string>, key: string)
    requires DistinctIdentities(keys) && FirstMatch(keys, key).None?
    ensures DistinctIdentities(keys + [key])
  {
    var keys' := keys + [key];
    forall i, j | 0 <= i < j < |keys'| && KeyParts(keys'[i]).Some?
      ensures KeyParts(keys'[i]) != KeyParts(keys'[j])
    {
      assert keys'[i] == keys[i];
      if j < |keys| {
        assert keys'[j] == keys[j];
      }
    }
  }

  lemma ReplaceKeepsDistinct(keys: seq<string>, e: nat, key: string)
    requires DistinctIdentities(keys) && FirstMatch(keys, key) == Some(e)
    ensures DistinctIdentities(RemoveAt(keys, e) + [key])
  {
    var keys' := RemoveAt(keys, e) + [key];
    var last := |keys'| - 1;
    forall i, j | 0 <= i < j < |keys'| && KeyParts(keys'[i]).Some?
      ensures KeyParts(keys'[i]) != KeyParts(keys'[j])
    {
      var i' := if i < e then i else i + 1;
      assert keys'[i] == keys[i'];
      if j < last {
        var j' := if j < e then j else j + 1;
        assert keys'[j] == keys[j'];
      } else {
        assert keys'[j] == key;
        if i' < e {
          assert KeyParts(keys[i']) != KeyParts(key);
        } else {
          assert KeyParts(keys[e]) != KeyParts(keys[i']);
        }
      }
    }
  }

  /** The state the loop carries: the inventory and the names added so far. */
  datatype CaptureRun = CaptureRun(inv: Inventory, added: seq<string>)

  /** Passes `j ..` of the loop over `indices`; out-of-range numbers are skipped. */
  function CaptureFrom(inv: Inventory, systemKeys: seq<string>, indices: seq<int>,
                       answers: seq<CaptureAnswer>, j: nat): (r: CaptureRun)
    requires j <= |indices|
    ensures |r.added| <= |indices| - j
    decreases |indices| - j
  {
    if j == |indices| then CaptureRun(inv, [])
    else
      var idx := indices[j];
      if 0 <= idx < |systemKeys| then
        match CaptureKey(inv, systemKeys[idx], AnswerAt(answers, j))
        case None => CaptureFrom(inv, systemKeys, indices, answers, j + 1)
        case Some(next) =>
          var rest := CaptureFrom(next, systemKeys, indices, answers, j + 1);
          CaptureRun(rest.inv, [KeyName(systemKeys[idx])] + rest.added)
      else CaptureFrom(inv, systemKeys, indices, answers, j + 1)
  }

  /** Each pass adds at most one key, and a run that adds nothing leaves the inventory
      as it was (so `capture_keys` then has nothing to save). */
  lemma {:induction false} CaptureFromAddsOnlyWhatItReports(inv: Inventory, systemKeys: seq<string>,
                                                             indices: seq<int>, answers: seq<CaptureAnswer>, j: nat)
    requires j <= |indices|
    ensures var r := CaptureFrom(inv, systemKeys, indices, answers, j);
            |r.added| <= |indices| - j && (r.added == [] ==> r.inv == inv)
    decreases |indices| - j
  {
    if j < |indices| {
      var idx := indices[j];
      if 0 <= idx < |systemKeys| {
        var step := CaptureKey(inv, systemKeys[idx], AnswerAt(answers, j));
        if step.Some? {
          CaptureFromAddsOnlyWhatItReports(step.value, systemKeys, indices, answers, j + 1);
        } else {
          CaptureFromAddsOnlyWhatItReports(inv, systemKeys, indices, answers, j + 1);
        }
      } else {
        CaptureFromAddsOnlyWhatItReports(inv, systemKeys, indices, answers, j + 1);
      }
    }
  }

  /** However the questions are answered, capturing never duplicates an identity. */
  lemma {:induction false} CaptureFromKeepsIdentitiesDistinct(inv: Inventory, systemKeys: seq<string>,
                                                              indices: seq<int>, answers: seq<CaptureAnswer>, j: nat)
    requires j <= |indices|
    requires DistinctIdentities(inv.keys)
    ensures DistinctIdentities(CaptureFrom(inv, systemKeys, indices, answers, j).inv.keys)
    decreases |indices| - j
  {
    if j < |indices| {
      var idx := indices[j];
      if 0 <= idx < |systemKeys| {
        var step := CaptureKey(inv, systemKeys[idx], AnswerAt(answers, j));
        if step.Some? {
          CaptureKeepsIdentitiesDistinct(inv, systemKeys[idx], AnswerAt(answers, j));
          CaptureFromKeepsIdentitiesDistinct(step.value, systemKeys, indices, answers, j + 1);
        } else {
          CaptureFromKeepsIdentitiesDistinct(inv, systemKeys, indices, answers, j + 1);
        }
      } else {
        CaptureFromKeepsIdentitiesDistinct(inv, systemKeys, indices, answers, j + 1);
      }
    }
  }

  /** When every selected key is already present and every overwrite is declined,
      nothing is added and the inventory is untouched (so nothing is saved). */
  lemma {:induction false} CaptureAllDeclined(inv: Inventory, systemKeys: seq<string>,
                                              indices: seq<int>, answers: seq<CaptureAnswer>, j: nat)
    requires j <= |indices|
    requires forall i :: j <= i < |indices| && 0 <= indices[i] < |systemKeys| ==>
               FirstMatch(inv.keys, systemKeys[indices[i]]).Some? && !Accepts(AnswerAt(answers, i).overwrite)
    ensures CaptureFrom(inv, systemKeys, indices, answers, j) == CaptureRun(inv, [])
    decreases |indices| - j
  {
    if j < |indices| {
      CaptureAllDeclined(inv, systemKeys, indices, answers, j + 1);
    }
  }
}

=== FILE: deletion.dfy ===
/**
 * The deletion loop of `delete_keys` (manage_keys.py:432-438) and the index lists
 * fed to it: every index that is in range for the list *as it is at that moment* is
 * deleted, and the metadata under the deleted key's name is dropped. The "all" path
 * feeds `range(len(keys))` (manage_keys.py:407), the selection path the typed numbers
 * sorted in descending order (manage_keys.py:413).
 */
module Deletion {
  import opened Wrappers
  import opened KeyLine
  import opened KeyStore
  import opened Selection

  /** The state the loop carries: the inventory and the lines deleted so far, whose
      names are what `deleted_keys` collects and prints. */
  datatype DeleteRun = DeleteRun(inv: Inventory, removed: seq<string>)

  /** The set of display names of `lines`. */
  function NameSet(lines: seq<string>): set<string>
    decreases |lines|
  {
    if lines == [] then {} else {KeyName(lines[0])} + NameSet(lines[1..])
  }

  lemma {:induction false} NameSetConcat(a: seq<string>, b: seq<string>)
    ensures NameSet(a + b) == NameSet(a) + NameSet(b)
    decreases |a|
  {
    if a == [] {
      assert a + b == b;
    } else {
      assert (a + b)[1..] == a[1..] + b;
      NameSetConcat(a[1..], b);
    }
  }

  /** One pass: `del self.keys[idx]` and `self.aliases.pop(name, None)` when `idx` is
      in range, nothing otherwise. */
  function DeleteAt(inv: Inventory, idx: int): (r: DeleteRun)
    ensures |r.removed| == |inv.keys| - |r.inv.keys| <= 1
    ensures r.inv.aliases == inv.aliases - NameSet(r.removed)
    ensures r.removed == [] ==> r.inv == inv
    ensures 0 <= idx < |inv.keys| ==> r.removed == [inv.keys[idx]] && r.inv.keys == RemoveAt(inv.keys, idx)
    ensures !(0 <= idx < |inv.keys|) ==> r == DeleteRun(inv, [])
  {
    if 0 <= idx < |inv.keys| then
      var key := inv.keys[idx];
      assert NameSet([key]) == {KeyName(key)} by {
        assert [key][1..] == [];
      }
      DeleteRun(Inventory(RemoveAt(inv.keys, idx), inv.aliases - {KeyName(key)}), [key])
    else DeleteRun(inv, [])
  }

  /** Passes `j ..` of the loop over `toDelete`. */
  function DeleteFrom(inv: Inventory, toDelete: seq<int>, j: nat): (r: DeleteRun)
    requires j <= |toDelete|
    ensures |r.removed| <= |toDelete| - j
    decreases |toDelete| - j
  {
    if j == |toDelete| then DeleteRun(inv, [])
    else
      var step := DeleteAt(inv, toDelete[j]);
      var rest := DeleteFrom(step.inv, toDelete, j + 1);
      DeleteRun(rest.inv, step.removed + rest.removed)
  }

  /** Each removed line shortens the inventory by one and takes the metadata under its
      name with it; a run that removes nothing changes nothing. */
  lemma {:induction false} DeleteFromAccounting(inv: Inventory, toDelete: seq<int>, j: nat)
    requires j <= |toDelete|
    ensures var r := DeleteFrom(inv, toDelete, j);
            |r.removed| == |inv.keys| - |r.inv.keys| &&
            r.inv.aliases == inv.aliases - NameSet(r.removed) &&
            (r.removed == [] ==> r.inv == inv)
    decreases |toDelete| - j
  {
    if j < |toDelete| {
      var step := DeleteAt(inv, toDelete[j]);
      DeleteFromAccounting(step.inv, toDelete, j + 1);
      var rest := DeleteFrom(step.inv, toDelete, j + 1);
      NameSetConcat(step.removed, rest.removed);
      MapMinusTwice(inv.aliases, NameSet(step.removed), NameSet(rest.removed));
    }
  }

  /** One pass hands the line it deletes, and only that line, to the removed list. */
  lemma DeleteAtMultiset(inv: Inventory, idx: int)
    ensures multiset(DeleteAt(inv, idx).removed) + multiset(DeleteAt(inv, idx).inv.keys) == multiset(inv.keys)
  {
    if 0 <= idx < |inv.keys| {
      RemoveAtMultiset(inv.keys, idx);
    }
  }

  /** The lines a run reports as removed are exactly the lines that left the
      inventory: together with the remaining lines they are the original ones. */
  lemma {:induction false} DeleteFromRemovedLines(inv: Inventory, toDelete: seq<int>, j: nat)
    requires j <= |toDelete|
    ensures multiset(DeleteFrom(inv, toDelete, j).removed) + multiset(DeleteFrom(inv, toDelete, j).inv.keys) ==
            multiset(inv.keys)
    decreases |toDelete| - j
  {
    if j < |toDelete| {
      var step := DeleteAt(inv, toDelete[j]);
      DeleteAtMultiset(inv, toDelete[j]);
      DeleteFromRemovedLines(step.inv, toDelete, j + 1);
      var rest := DeleteFrom(step.inv, toDelete, j + 1);
      assert DeleteFrom(inv, toDelete, j) == DeleteRun(rest.inv, step.removed + rest.removed);
      assert multiset(step.removed + rest.removed) == multiset(step.removed) + multiset(rest.removed);
    }
  }

  // ---------------------------------------------------------------------------
  // What deleting a set of original positions means

  lemma MapMinusTwice(m: Aliases, a: set<string>, b: set<string>)
    ensures (m - a) - b == m - (a + b)
  {
  }

  /** `keys` without the entries at the positions in `doomed`, in their original order. */
  function DeletePositions(keys: seq<string>, doomed: set<int>): (r: seq<string>)
    ensures |r| <= |keys|
    decreases |keys|
  {
    if keys == [] then []
    else
      var n := |keys| - 1;
      DeletePositions(keys[..n], doomed) + (if n in doomed then [] else [keys[n]])
  }

  /** How many of the positions `0 .. n-1` are in `doomed`. */
  function CountIn(doomed: set<int>, n: nat): (c: nat)
    ensures c <= n
  {
    if n == 0 then 0 else CountIn(doomed, n - 1) + (if n - 1 in doomed then 1 else 0)
  }

  /** One entry goes per doomed position that exists. */
  lemma {:induction false} DeletePositionsLength(keys: seq<string>, doomed: set<int>)
    ensures |DeletePositions(keys, doomed)| == |keys| - CountIn(doomed, |keys|)
    decreases |keys|
  {
    if keys != [] {
      DeletePositionsLength(keys[..|keys| - 1], doomed);
    }
  }

  /** Only the doomed positions that exist matter. */
  lemma {:induction false} DeletePositionsAgree(keys: seq<string>, s: set<int>, t: set<int>)
    requires forall x :: 0 <= x < |keys| ==> (x in s <==> x in t)
    ensures DeletePositions(keys, s) == DeletePositions(keys, t)
    decreases |keys|
  {
    if keys != [] {
      DeletePositionsAgree(keys[..|keys| - 1], s, t);
    }
  }

  /** Deleting position `d` first, then positions all below `d`, is deleting them all. */
  lemma {:induction false} DeletePositionsRemove(keys: seq<string>, d: nat, s: set<int>)
    requires d < |keys|
    requires forall x :: x in s ==> x < d
    ensures DeletePositions(RemoveAt(keys, d), s) == DeletePositions(keys, s + {d})
    decreases |keys|
  {
    var n := |keys| - 1;
    var front := keys[..n];
    if d == n {
      assert RemoveAt(keys, d) == front;
      DeletePositionsAgree(front, s, s + {d});
    } else {
      var removed := RemoveAt(keys, d);
      assert removed[..n - 1] == RemoveAt(front, d);
      assert removed[n - 1] == keys[n];
      DeletePositionsRemove(front, d, s);
    }
  }

  /** The elements of a list of indices, as a set. */
  function IndexSet(ds: seq<int>): set<int> {
    set x | x in ds
  }

  predicate StrictlyDescending(ds: seq<int>) {
    forall i, j :: 0 <= i < j < |ds| ==> ds[i] > ds[j]
  }

  /** Distinct indices deleted from the highest down remove exactly the entries
      originally at those positions; indices out of range are ignored. */
  lemma {:induction false} DescendingDeletesPositions(inv: Inventory, ds: seq<int>, j: nat)
    requires j <= |ds|
    requires StrictlyDescending(ds)
    ensures DeleteFrom(inv, ds, j).inv.keys == DeletePositions(inv.keys, IndexSet(ds[j..]))
    decreases |ds| - j
  {
    if j == |ds| {
      DeletePositionsAgree(inv.keys, {}, IndexSet(ds[j..]));
      assert DeletePositions(inv.keys, {}) == inv.keys by {
        DeletePositionsKeepsAll(inv.keys);
      }
    } else {
      var d := ds[j];
      var later := IndexSet(ds[j + 1..]);
      assert IndexSet(ds[j..]) == later + {d} by {
        assert ds[j..] == [d] + ds[j + 1..];
      }
      assert forall x :: x in later ==> x < d;
      var step := DeleteAt(inv, d);
      DescendingDeletesPositions(step.inv, ds, j + 1);
      if 0 <= d < |inv.keys| {
        DeletePositionsRemove(inv.keys, d, later);
      } else {
        DeletePositionsAgree(inv.keys, later, later + {d});
      }
    }
  }

  /** Nothing doomed, nothing deleted. */
  lemma {:induction false} DeletePositionsKeepsAll(keys: seq<string>)
    ensures DeletePositions(keys, {}) == keys
    decreases |keys|
  {
    if keys != [] {
      DeletePositionsKeepsAll(keys[..|keys| - 1]);
    }
  }

  // ---------------------------------------------------------------------------
  // The "all" path: ascending indices over a shrinking list

  /** The entries at the odd positions 1, 3, 5, ... */
  function OddPositions(s: seq<string>): seq<string>
    decreases |s|
  {
    if |s| < 2 then [] else [s[1]] + OddPositions(s[2..])
  }

  /** The entries at the even positions 0, 2, 4, ... */
  function EvenPositions(s: seq<string>): seq<string>
    decreases |s|
  {
    if |s| < 2 then s else [s[0]] + EvenPositions(s[2..])
  }

  /** The two halves are what their names say: `s[1], s[3], ...` and `s[0], s[2], ...`. */
  lemma {:induction false} PositionsByParity(s: seq<string>)
    ensures |OddPositions(s)| == |s| / 2
    ensures forall i :: 0 <= i < |s| / 2 ==> OddPositions(s)[i] == s[2 * i + 1]
    ensures |EvenPositions(s)| == (|s| + 1) / 2
    ensures forall i :: 0 <= i < (|s| + 1) / 2 ==> EvenPositions(s)[i] == s[2 * i]
    decreases |s|
  {
    if |s| >= 2 {
      PositionsByParity(s[2..]);
      forall i | 1 <= i < |s| / 2 ensures OddPositions(s)[i] == s[2 * i + 1] {
        assert OddPositions(s)[i] == OddPositions(s[2..])[i - 1];
      }
      forall i | 1 <= i < (|s| + 1) / 2 ensures EvenPositions(s)[i] == s[2 * i] {
        assert EvenPositions(s)[i] == EvenPositions(s[2..])[i - 1];
      }
    }
  }

  /** Indices that are out of range for the list as it stands are all skipped. */
  lemma {:induction false} SkipOutOfRange(inv: Inventory, ds: seq<int>, j: nat)
    requires j <= |ds|
    requires forall i :: j <= i < |ds| ==> ds[i] < 0 || ds[i] >= |inv.keys|
    ensures DeleteFrom(inv, ds, j) == DeleteRun(inv, [])
    decreases |ds| - j
  {
    if j < |ds| {
      SkipOutOfRange(inv, ds, j + 1);
    }
  }

  /** The entries at the odd and even positions of `back` after its first two. */
  lemma PositionsAfterTwo(back: seq<string>)
    requires |back| >= 2
    ensures OddPositions(back) == [back[1]] + OddPositions(back[2..])
    ensures EvenPositions(back) == [back[0]] + EvenPositions(back[2..])
  {
  }

  /** One pass of the ascending loop at `k`, as the loop's definition unrolls it. */
  lemma AscendingUnroll(cur: seq<string>, k: nat, aliases: Aliases, n: nat)
    requires k < |cur| && k < n
    ensures var name := KeyName(cur[k]);
            var rest := DeleteFrom(Inventory(cur[..k] + cur[k + 1..], aliases - {name}), Range(n), k + 1);
            DeleteFrom(Inventory(cur, aliases), Range(n), k) == DeleteRun(rest.inv, [cur[k]] + rest.removed)
  {
    assert Range(n)[k] == k;
  }

  /** Ascending indices from `k` on, over a list `cur`: each pass deletes the entry just
      after the ones skipped so far, so the part from `k` on loses its even positions. */
  lemma {:induction false} AscendingDeletesEvenPositions(cur: seq<string>, k: nat, aliases: Aliases, n: nat)
    requires k <= |cur| && k <= n
    requires |cur| - k <= 2 * (n - k)
    ensures var r := DeleteFrom(Inventory(cur, aliases), Range(n), k);
            r.inv.keys == cur[..k] + OddPositions(cur[k..])
    decreases |cur| - k
  {
    if k == |cur| {
      SkipOutOfRange(Inventory(cur, aliases), Range(n), k);
      assert cur[..k] == cur;
    } else {
      var name := KeyName(cur[k]);
      var next := cur[..k] + cur[k + 1..];
      AscendingUnroll(cur, k, aliases, n);
      if k + 1 == |cur| {
        SkipOutOfRange(Inventory(next, aliases - {name}), Range(n), k + 1);
        assert next == cur[..k];
      } else {
        AscendingDeletesEvenPositions(next, k + 1, aliases - {name}, n);
        AscendingRegroup(cur, k);
      }
    }
  }

  /** The lines the same passes delete: those at the even positions from `k` on. */
  lemma {:induction false} AscendingDeletedLines(cur: seq<string>, k: nat, aliases: Aliases, n: nat)
    requires k <= |cur| && k <= n
    requires |cur| - k <= 2 * (n - k)
    ensures var r := DeleteFrom(Inventory(cur, aliases), Range(n), k);
            r.removed == EvenPositions(cur[k..])
    decreases |cur| - k
  {
    if k == |cur| {
      SkipOutOfRange(Inventory(cur, aliases), Range(n), k);
      assert cur[..k] == cur;
    } else {
      var name := KeyName(cur[k]);
      var next := cur[..k] + cur[k + 1..];
      AscendingUnroll(cur, k, aliases, n);
      if k + 1 == |cur| {
        SkipOutOfRange(Inventory(next, aliases - {name}), Range(n), k + 1);
        assert next == cur[..k];
      } else {
        AscendingDeletedLines(next, k + 1, aliases - {name}, n);
        AscendingRegroup(cur, k);
      }
    }
  }

  /** The bookkeeping of one pass: the entry after the deleted one joins the kept part. */
  lemma AscendingRegroup(cur: seq<string>, k: nat)
    requires k + 1 < |cur|
    ensures var next := cur[..k] + cur[k + 1..];
            next[..k + 1] + OddPositions(next[k + 1..]) == cur[..k] + OddPositions(cur[k..]) &&
            [cur[k]] + EvenPositions(next[k + 1..]) == EvenPositions(cur[k..])
  {
    var next := cur[..k] + cur[k + 1..];
    assert next[..k + 1] == cur[..k] + [cur[k + 1]];
    assert next[k + 1..] == cur[k + 2..];
    PositionsAfterTwo(cur[k..]);
    assert cur[k..][2..] == cur[k + 2..];
    assert cur[..k] + [cur[k + 1]] + OddPositions(cur[k + 2..])
        == cur[..k] + ([cur[k + 1]] + OddPositions(cur[k + 2..]));
  }

  /** The "all" path deletes only the entries at even positions, ceil(n/2) of them,
      keeps those at odd positions, and drops the metadata of the deleted names. */
  lemma DeleteAllKeepsOddPositions(inv: Inventory)
    ensures var r := DeleteFrom(inv, Range(|inv.keys|), 0);
            r.inv.keys == OddPositions(inv.keys) &&
            r.removed == EvenPositions(inv.keys) &&
            |r.removed| == (|inv.keys| + 1) / 2 &&
            r.inv.aliases == inv.aliases - NameSet(r.removed)
  {
    DeleteFromAccounting(inv, Range(|inv.keys|), 0);
    AscendingDeletesEvenPositions(inv.keys, 0, inv.aliases, |inv.keys|);
    AscendingDeletedLines(inv.keys, 0, inv.aliases, |inv.keys|);
    assert inv.keys[..0] == [] && inv.keys[0..] == inv.keys;
    PositionsByParity(inv.keys);
  }

  /** `range(n - 1, -1, -1)`: the indices `n-1 .. 0`, descending. */
  function RangeDown(n: nat): (r: seq<int>)
    ensures |r| == n && forall i :: 0 <= i < n ==> r[i] == n - 1 - i
  {
    seq(n, i => n - 1 - i)
  }

  /** Every position doomed, nothing left. */
  lemma {:induction false} DeletePositionsAll(keys: seq<string>, doomed: set<int>)
    requires forall x :: 0 <= x < |keys| ==> x in doomed
    ensures DeletePositions(keys, doomed) == []
    decreases |keys|
  {
    if keys != [] {
      DeletePositionsAll(keys[..|keys| - 1], doomed);
    }
  }

  /** Feeding the loop the indices from the highest down, as the prompt "delete all keys"
      promises, empties the inventory. */
  lemma DeleteAllDescendingEmpties(inv: Inventory)
    ensures DeleteFrom(inv, RangeDown(|inv.keys|), 0).inv.keys == []
  {
    var n := |inv.keys|;
    var ds := RangeDown(n);
    DescendingDeletesPositions(inv, ds, 0);
    assert ds[0..] == ds;
    forall x | 0 <= x < n ensures x in IndexSet(ds) {
      assert ds[n - 1 - x] == x;
    }
    DeletePositionsAll(inv.keys, IndexSet(ds));
  }

  // ---------------------------------------------------------------------------
  // The selection path: sorted(..., reverse=True)

  predicate NonIncreasing(s: seq<int>) {
    forall i, j :: 0 <= i < j < |s| ==> s[i] >= s[j]
  }

  predicate Distinct(s: seq<int>) {
    forall i, j :: 0 <= i < j < |s| ==> s[i] != s[j]
  }

  function InsertDesc(x: int, s: seq<int>): (r: seq<int>)
    requires NonIncreasing(s)
    ensures NonIncreasing(r)
    ensures multiset(r) == multiset(s) + multiset{x}
    ensures |r| == |s| + 1 && (r[0] == x || (s != [] && r[0] == s[0]))
    decreases |s|
  {
    if s == [] || x >= s[0] then [x] + s
    else
      var rest := InsertDesc(x, s[1..]);
      assert rest[0] <= s[0];
      assert s == [s[0]] + s[1..];
      [s[0]] + rest
  }

  /** `sorted(s, reverse=True)`: the same numbers, largest first. */
  function SortDesc(s: seq<int>): (r: seq<int>)
    ensures NonIncreasing(r)
    ensures multiset(r) == multiset(s)
    decreases |s|
  {
    if s == [] then []
    else
      assert s == [s[0]] + s[1..];
      InsertDesc(s[0], SortDesc(s[1..]))
  }

  lemma {:induction false} InsertKeepsStrict(x: int, s: seq<int>)
    requires StrictlyDescending(s) && x !in s
    ensures StrictlyDescending(InsertDesc(x, s))
    decreases |s|
  {
    if s != [] && x < s[0] {
      assert x !in s[1..];
      InsertKeepsStrict(x, s[1..]);
      var rest := InsertDesc(x, s[1..]);
      assert rest[0] < s[0];
    }
  }

  /** Without repeats, the sorted selection is strictly descending. */
  lemma {:induction false} SortDescDistinct(s: seq<int>)
    requires Distinct(s)
    ensures StrictlyDescending(SortDesc(s))
    decreases |s|
  {
    if s != [] {
      SortDescDistinct(s[1..]);
      var t := SortDesc(s[1..]);
      assert s[0] !in s[1..];
      assert s[0] !in multiset(t);
      InsertKeepsStrict(s[0], t);
    }
  }

  /** With distinct numbers, the selection path deletes exactly the entries originally
      at the selected in-range positions, keeps the rest in order, and the list gets
      shorter by the number of those positions. */
  lemma DistinctSelectionDeletesPositions(inv: Inventory, indices: seq<int>)
    requires Distinct(indices)
    ensures DeleteFrom(inv, SortDesc(indices), 0).inv.keys == DeletePositions(inv.keys, IndexSet(indices))
    ensures |DeleteFrom(inv, SortDesc(indices), 0).inv.keys| == |inv.keys| - CountIn(IndexSet(indices), |inv.keys|)
  {
    var ds := SortDesc(indices);
    SortDescDistinct(indices);
    DescendingDeletesPositions(inv, ds, 0);
    assert ds[0..] == ds;
    assert IndexSet(ds) == IndexSet(indices) by {
      assert forall x :: x in ds <==> x in multiset(ds);
      assert forall x :: x in indices <==> x in multiset(indices);
    }
    DeletePositionsLength(inv.keys, IndexSet(indices));
  }

  /** A position selected twice deletes its entry and then the one that slid into
      its place. */
  lemma RepeatedIndexDeletesNeighbour(inv: Inventory, i: nat)
    requires i + 1 < |inv.keys|
    ensures DeleteFrom(inv, SortDesc([i, i]), 0).inv.keys == inv.keys[..i] + inv.keys[i + 2..]
  {
    SortDescPair(i);
    var ds := [i, i];
    var once := DeleteAt(inv, i);
    var twice := DeleteAt(once.inv, i);
    assert DeleteFrom(twice.inv, ds, 2) == DeleteRun(twice.inv, []);
    assert DeleteFrom(once.inv, ds, 1).inv == twice.inv;
    assert DeleteFrom(inv, ds, 0).inv == twice.inv;
    RemoveAtTwice(inv.keys, i);
  }

  lemma RemoveAtTwice(a: seq<string>, i: nat)
    requires i + 1 < |a|
    ensures RemoveAt(RemoveAt(a, i), i) == a[..i] + a[i + 2..]
  {
    var b := a[..i] + a[i + 1..];
    assert b[..i] == a[..i];
    assert b[i + 1..] == a[i + 2..];
  }

  lemma SortDescPair(i: int)
    ensures SortDesc([i, i]) == [i, i]
  {
    assert [i, i][1..] == [i];
    assert SortDesc([i]) == [i];
  }

  /** Repeats dropped from a non-increasing list: strictly descending, same numbers. */
  function DedupDesc(s: seq<int>): (r: seq<int>)
    requires NonIncreasing(s)
    ensures StrictlyDescending(r)
    ensures forall x :: x in r <==> x in s
    decreases |s|
  {
    if |s| <= 1 then s
    else if s[0] == s[1] then
      var rest := DedupDesc(s[1..]);
      assert s == [s[0]] + s[1..];
      rest
    else
      var rest := DedupDesc(s[1..]);
      assert forall k :: 0 <= k < |rest| ==> rest[k] < s[0] by {
        forall k | 0 <= k < |rest| ensures rest[k] < s[0] {
          assert rest[k] in s[1..];
          var m :| 0 <= m < |s[1..]| && s[1..][m] == rest[k];
          assert s[1 + m] <= s[1];
        }
      }
      assert s == [s[0]] + s[1..];
      [s[0]] + rest
  }

  /** The selection path with repeats dropped deletes exactly the entries originally at
      the selected in-range positions, whatever was typed. */
  lemma DedupSelectionDeletesPositions(inv: Inventory, indices: seq<int>)
    ensures DeleteFrom(inv, DedupDesc(SortDesc(indices)), 0).inv.keys == DeletePositions(inv.keys, IndexSet(indices))
  {
    var sorted := SortDesc(indices);
    var ds := DedupDesc(sorted);
    DescendingDeletesPositions(inv, ds, 0);
    assert ds[0..] == ds;
    SameMembers(ds, sorted);
    SameMembersSorted(indices);
  }

  lemma SameMembers(a: seq<int>, b: seq<int>)
    requires forall x :: x in a <==> x in b
    ensures IndexSet(a) == IndexSet(b)
  {
    forall x ensures x in IndexSet(a) <==> x in IndexSet(b) {
    }
  }

  /** Sorting keeps the numbers typed. */
  lemma SameMembersSorted(indices: seq<int>)
    ensures IndexSet(SortDesc(indices)) == IndexSet(indices)
  {
    var sorted := SortDesc(indices);
    assert forall x :: x in sorted <==> x in multiset(sorted);
    assert forall x :: x in indices <==> x in multiset(indices);
    SameMembers(sorted, indices);
  }

  /** Keys that share a display name share one metadata entry: deleting one of them
      leaves the other without metadata. */
  lemma SharedNameLosesMetadata(inv: Inventory, p: nat, q: nat)
    requires p < |inv.keys| && q < |inv.keys| && p != q
    requires KeyName(inv.keys[p]) == KeyName(inv.keys[q])
    ensures var r := DeleteAt(inv, p).inv;
            inv.keys[q] in r.keys && KeyName(inv.keys[q]) !in r.aliases
  {
    var r := DeleteAt(inv, p).inv;
    if q < p {
      assert r.keys[q] == inv.keys[q];
    } else {
      assert r.keys[q - 1] == inv.keys[q];
    }
  }
}

=== FILE: deploy.dfy ===
/**
 * The filtering and verification arithmetic of `deploy_keys` (manage_keys.py:258-353):
 * the selected keys that the target `authorized_keys` does not already hold are
 * appended to it, one per line, and then the target is read back to sort the appended
 * keys into those now present and those that are not. The target's content is a
 * parameter; a missing file holds nothing and is created by the append.
 */
module Deploy {
  import opened Wrappers
  import opened Text
  import opened KeyLine
  import opened KeyStore
  import opened KeyFile
  import opened Selection

  /** `[self.keys[i] for i in indices if 0 <= i < len(self.keys)]` (manage_keys.py:289):
      in the typed order, repeats kept, out-of-range numbers dropped. */
  function Picks(keys: seq<string>, indices: seq<int>): (r: seq<string>)
    ensures |r| <= |indices|
    decreases |indices|
  {
    if indices == [] then []
    else (if 0 <= indices[0] < |keys| then [keys[indices[0]]] else []) + Picks(keys, indices[1..])
  }

  /** Every picked key is a key of the inventory. */
  lemma {:induction false} PicksFromKeys(keys: seq<string>, indices: seq<int>)
    ensures forall k :: 0 <= k < |Picks(keys, indices)| ==> Picks(keys, indices)[k] in keys
    decreases |indices|
  {
    if indices != [] {
      PicksFromKeys(keys, indices[1..]);
    }
  }

  /** One typed number picks its key when it is in range, and nothing otherwise. */
  lemma PicksOne(keys: seq<string>, i: int)
    ensures Picks(keys, [i]) == if 0 <= i < |keys| then [keys[i]] else []
  {
    assert [i][1..] == [];
  }

  /** The picks of two runs of numbers are the picks of the first run, then those of
      the second: the typed order is kept. */
  lemma {:induction false} PicksConcat(keys: seq<string>, a: seq<int>, b: seq<int>)
    ensures Picks(keys, a + b) == Picks(keys, a) + Picks(keys, b)
    decreases |a|
  {
    if a == [] {
      assert a + b == b;
    } else {
      var ab := a + b;
      assert ab[0] == a[0] && ab[1..] == a[1..] + b;
      PicksConcat(keys, a[1..], b);
      var x: seq<string> := if 0 <= a[0] < |keys| then [keys[a[0]]] else [];
      assert Picks(keys, ab) == x + Picks(keys, a[1..] + b);
      assert Picks(keys, a) == x + Picks(keys, a[1..]);
      SeqAssoc(x, Picks(keys, a[1..]), Picks(keys, b));
    }
  }

  /** When every typed number is in range, the `k`-th pick is the key at the `k`-th
      number. */
  lemma {:induction false} PicksInRange(keys: seq<string>, indices: seq<int>)
    requires forall k :: 0 <= k < |indices| ==> 0 <= indices[k] < |keys|
    ensures |Picks(keys, indices)| == |indices|
    ensures forall k :: 0 <= k < |indices| ==> Picks(keys, indices)[k] == keys[indices[k]]
    decreases |indices|
  {
    if indices != [] {
      PicksInRange(keys, indices[1..]);
      var rest := Picks(keys, indices[1..]);
      assert Picks(keys, indices) == [keys[indices[0]]] + rest;
      forall k | 0 <= k < |indices| ensures Picks(keys, indices)[k] == keys[indices[k]] {
        if k > 0 {
          assert Picks(keys, indices)[k] == rest[k - 1];
          assert indices[1..][k - 1] == indices[k];
        }
      }
    }
  }

  /** One more typed number, for a loop that builds `Picks` front to back. */
  lemma {:induction false} PicksStep(keys: seq<string>, indices: seq<int>, i: nat, acc: seq<string>)
    requires i < |indices|
    ensures !(0 <= indices[i] < |keys|) ==> acc + Picks(keys, indices[i..]) == acc + Picks(keys, indices[i + 1..])
    ensures 0 <= indices[i] < |keys| ==>
              acc + Picks(keys, indices[i..]) == (acc + [keys[indices[i]]]) + Picks(keys, indices[i + 1..])
  {
    var rest := indices[i + 1..];
    assert indices[i..] == [indices[i]] + rest;
    PicksConcat(keys, [indices[i]], rest);
    PicksOne(keys, indices[i]);
    var one := Picks(keys, [indices[i]]);
    var tail := Picks(keys, rest);
    assert Picks(keys, indices[i..]) == one + tail;
    if 0 <= indices[i] < |keys| {
      SeqAssoc(acc, one, tail);
    } else {
      assert one + tail == tail;
    }
  }

  lemma SeqAssoc(a: seq<string>, b: seq<string>, c: seq<string>)
    ensures a + (b + c) == (a + b) + c
  {
  }

  /** The keys a selection chooses: all of them, or the picked ones; `None` when the
      selection chooses nothing to do (blank) or cannot be read (invalid). */
  function SelectedKeys(keys: seq<string>, sel: Selection): Option<seq<string>> {
    match sel
    case All => Some(keys)
    case Numbers(indices) => Some(Picks(keys, indices))
    case _ => None
  }

  /** The lines of the target as `set(line.strip() for line in f if line.strip())` sees
      them (manage_keys.py:298, 322); a missing file has none. */
  function TargetLines(target: Option<string>): seq<string> {
    match target
    case None => []
    case Some(text) => LoadLines(text)
  }

  /** `keys_to_add` (manage_keys.py:303). */
  function KeysToAdd(selected: seq<string>, existing: seq<string>): (r: seq<string>)
    ensures forall x :: multiset(r)[x] == if x in existing then 0 else multiset(selected)[x]
    decreases |selected|
  {
    if selected == [] then []
    else
      var rest := KeysToAdd(selected[1..], existing);
      assert selected == [selected[0]] + selected[1..];
      (if selected[0] in existing then [] else [selected[0]]) + rest
  }

  /** A single selected key is kept exactly when the target lacks it. */
  lemma KeysToAddOne(x: string, existing: seq<string>)
    ensures KeysToAdd([x], existing) == if x in existing then [] else [x]
  {
    assert [x][1..] == [];
  }

  /** Filtering two runs of selected keys is filtering the first, then the second: the
      selection order is kept. */
  lemma {:induction false} KeysToAddConcat(a: seq<string>, b: seq<string>, existing: seq<string>)
    ensures KeysToAdd(a + b, existing) == KeysToAdd(a, existing) + KeysToAdd(b, existing)
    decreases |a|
  {
    if a == [] {
      assert a + b == b;
    } else {
      var ab := a + b;
      assert ab[0] == a[0] && ab[1..] == a[1..] + b;
      KeysToAddConcat(a[1..], b, existing);
      var x: seq<string> := if a[0] in existing then [] else [a[0]];
      assert KeysToAdd(ab, existing) == x + KeysToAdd(a[1..] + b, existing);
      assert KeysToAdd(a, existing) == x + KeysToAdd(a[1..], existing);
      SeqAssoc(x, KeysToAdd(a[1..], existing), KeysToAdd(b, existing));
    }
  }

  /** One more selected key, for a loop that builds `KeysToAdd` front to back. */
  lemma KeysToAddStep(selected: seq<string>, existing: seq<string>, i: nat, acc: seq<string>)
    requires i < |selected|
    ensures selected[i] in existing ==>
              acc + KeysToAdd(selected[i..], existing) == acc + KeysToAdd(selected[i + 1..], existing)
    ensures selected[i] !in existing ==>
              acc + KeysToAdd(selected[i..], existing) == (acc + [selected[i]]) + KeysToAdd(selected[i + 1..], existing)
  {
    var rest := selected[i + 1..];
    assert selected[i..] == [selected[i]] + rest;
    KeysToAddConcat([selected[i]], rest, existing);
    KeysToAddOne(selected[i], existing);
    if selected[i] in existing {
      assert [] + KeysToAdd(rest, existing) == KeysToAdd(rest, existing);
    } else {
      SeqAssoc(acc, [selected[i]], KeysToAdd(rest, existing));
    }
  }

  /** The appended keys sorted by whether the re-read target holds them
      (manage_keys.py:324-332); the names printed are those of these lines. */
  datatype Verdict = Verdict(succeeded: seq<string>, failed: seq<string>)

  function Verify(added: seq<string>, deployed: seq<string>): (v: Verdict)
    ensures |v.succeeded| + |v.failed| == |added|
    ensures added == [] ==> v == Verdict([], [])
    decreases |added|
  {
    if added == [] then Verdict([], [])
    else
      var rest := Verify(added[1..], deployed);
      if added[0] in deployed then Verdict([added[0]] + rest.succeeded, rest.failed)
      else Verdict(rest.succeeded, [added[0]] + rest.failed)
  }

  /** The verdict splits the appended keys, with their repeats, into those the target
      now holds and those it does not. */
  lemma {:induction false} VerifyPartition(added: seq<string>, deployed: seq<string>)
    ensures multiset(Verify(added, deployed).succeeded) + multiset(Verify(added, deployed).failed) == multiset(added)
    ensures forall k :: 0 <= k < |Verify(added, deployed).succeeded| ==> Verify(added, deployed).succeeded[k] in deployed
    ensures forall k :: 0 <= k < |Verify(added, deployed).failed| ==> Verify(added, deployed).failed[k] !in deployed
  {
    VerifyCounts(added, deployed);
    VerifySorts(added, deployed);
  }

  lemma {:induction false} VerifyCounts(added: seq<string>, deployed: seq<string>)
    ensures var v := Verify(added, deployed);
            multiset(v.succeeded) + multiset(v.failed) == multiset(added)
    decreases |added|
  {
    if added != [] {
      VerifyCounts(added[1..], deployed);
      assert added == [added[0]] + added[1..];
      assert multiset(added) == multiset{added[0]} + multiset(added[1..]);
    }
  }

  lemma {:induction false} VerifySorts(added: seq<string>, deployed: seq<string>)
    ensures forall k :: 0 <= k < |Verify(added, deployed).succeeded| ==> Verify(added, deployed).succeeded[k] in deployed
    ensures forall k :: 0 <= k < |Verify(added, deployed).failed| ==> Verify(added, deployed).failed[k] !in deployed
    decreases |added|
  {
    if added != [] {
      VerifySorts(added[1..], deployed);
      var rest := Verify(added[1..], deployed);
      var v := Verify(added, deployed);
      if added[0] in deployed {
        assert v.succeeded == [added[0]] + rest.succeeded && v.failed == rest.failed;
        forall k | 0 < k < |v.succeeded| ensures v.succeeded[k] in deployed {
          assert v.succeeded[k] == rest.succeeded[k - 1];
        }
      } else {
        assert v.failed == [added[0]] + rest.failed && v.succeeded == rest.succeeded;
        forall k | 0 < k < |v.failed| ensures v.failed[k] !in deployed {
          assert v.failed[k] == rest.failed[k - 1];
        }
      }
    }
  }

  /** One more appended key, for a loop that builds the verdict front to back. */
  lemma VerifyStep(added: seq<string>, deployed: seq<string>, i: nat, succeeded: seq<string>, failed: seq<string>)
    requires i < |added|
    ensures added[i] in deployed ==>
              succeeded + Verify(added[i..], deployed).succeeded ==
              (succeeded + [added[i]]) + Verify(added[i + 1..], deployed).succeeded &&
              failed + Verify(added[i..], deployed).failed == failed + Verify(added[i + 1..], deployed).failed
    ensures added[i] !in deployed ==>
              succeeded + Verify(added[i..], deployed).succeeded == succeeded + Verify(added[i + 1..], deployed).succeeded &&
              failed + Verify(added[i..], deployed).failed ==
              (failed + [added[i]]) + Verify(added[i + 1..], deployed).failed
  {
    assert added[i..][1..] == added[i + 1..];
  }

  datatype DeployOutcome =
    | NoKeys
    | ListingCrashed
    | NoSelection
    | InvalidSelection
    | AlreadyDeployed
    | Deployed(target: string, added: seq<string>, succeeded: seq<string>, failed: seq<string>)

  /** `deploy_keys` with the inventory, the typed selection and the target's content:
      what it reports and what the target holds afterwards. */
  function DeploySpec(keys: seq<string>, aliases: Aliases, selection: string, target: Option<string>): (r: DeployOutcome)
    ensures keys == [] <==> r == NoKeys
    ensures (r.AlreadyDeployed? || r.Deployed?) ==> !ListingCrashes(keys, aliases)
    ensures r.Deployed? ==> r.added != [] && target.GetOr("") <= r.target &&
                            multiset(r.succeeded) + multiset(r.failed) == multiset(r.added)
  {
    if keys == [] then NoKeys
    else if ListingCrashes(keys, aliases) then ListingCrashed
    else
      var sel := ParseSelection(selection);
      if sel.Blank? then NoSelection
      else match SelectedKeys(keys, sel)
        case None => InvalidSelection
        case Some(selected) =>
          var toAdd := KeysToAdd(selected, TargetLines(target));
          if toAdd == [] then AlreadyDeployed else Deployment(target, toAdd)
  }

  /** The append of `toAdd` to the target and the check that reads it back
      (manage_keys.py:308-332). */
  function Deployment(target: Option<string>, toAdd: seq<string>): (d: DeployOutcome)
    ensures d.Deployed? && d.added == toAdd
    ensures d.target == target.GetOr("") + AppendText(toAdd)
    ensures multiset(d.succeeded) + multiset(d.failed) == multiset(toAdd)
    ensures forall k :: 0 <= k < |d.succeeded| ==> d.succeeded[k] in LoadLines(d.target)
    ensures forall k :: 0 <= k < |d.failed| ==> d.failed[k] !in LoadLines(d.target)
  {
    var written := target.GetOr("") + AppendText(toAdd);
    var verdict := Verify(toAdd, LoadLines(written));
    VerifyPartition(toAdd, LoadLines(written));
    Deployed(written, toAdd, verdict.succeeded, verdict.failed)
  }

  /** A deploy that writes has appended the selected keys the target lacked. */
  lemma DeployedAppendsMissing(keys: seq<string>, aliases: Aliases, selection: string, target: Option<string>)
    requires DeploySpec(keys, aliases, selection, target).Deployed?
    ensures SelectedKeys(keys, ParseSelection(selection)).Some?
    ensures DeploySpec(keys, aliases, selection, target) ==
            Deployment(target, KeysToAdd(SelectedKeys(keys, ParseSelection(selection)).value, TargetLines(target)))
  {
  }

  /** A target that is missing or ends on a line boundary. */
  predicate WellTerminated(target: Option<string>) {
    target.None? || EndsWithNewline(target.value)
  }

  /** Every picked key comes from the inventory, so the picks of canonical lines are
      canonical. */
  lemma SelectedCanonical(keys: seq<string>, sel: Selection)
    requires AllCanonical(keys) && SelectedKeys(keys, sel).Some?
    ensures AllCanonical(SelectedKeys(keys, sel).value)
  {
    if sel.Numbers? {
      PicksFromKeys(keys, sel.indices);
    }
  }

  lemma KeysToAddCanonical(selected: seq<string>, existing: seq<string>)
    requires AllCanonical(selected)
    ensures AllCanonical(KeysToAdd(selected, existing))
  {
    var r := KeysToAdd(selected, existing);
    forall k | 0 <= k < |r| ensures CanonicalLine(r[k]) {
      assert multiset(r)[r[k]] > 0;
      assert r[k] in multiset(selected);
    }
  }

  /** Appending to a well-terminated target: reading it back gives its old lines, then
      exactly the appended keys. */
  lemma AppendReadsBack(target: Option<string>, toAdd: seq<string>)
    requires WellTerminated(target) && AllCanonical(toAdd)
    ensures LoadLines(target.GetOr("") + AppendText(toAdd)) == TargetLines(target) + toAdd
  {
    var before := target.GetOr("");
    LoadConcat(before, AppendText(toAdd));
    LoadAppendText(toAdd);
    if target.None? {
      assert LoadLines("") == [];
    }
  }

  /** Keys that are all found on reading back all succeed, in order. */
  lemma {:induction false} VerifyAllFound(added: seq<string>, deployed: seq<string>)
    requires forall k :: 0 <= k < |added| ==> added[k] in deployed
    ensures Verify(added, deployed) == Verdict(added, [])
    decreases |added|
  {
    if added != [] {
      VerifyAllFound(added[1..], deployed);
      assert added == [added[0]] + added[1..];
    }
  }

  /** Selected keys that the target all holds leave nothing to add. */
  lemma {:induction false} NothingToAdd(selected: seq<string>, existing: seq<string>)
    requires forall k :: 0 <= k < |selected| ==> selected[k] in existing
    ensures KeysToAdd(selected, existing) == []
    decreases |selected|
  {
    if selected != [] {
      NothingToAdd(selected[1..], existing);
    }
  }

  /** Keys read back after the old lines are all found. */
  lemma FoundAfterAppend(before: seq<string>, toAdd: seq<string>)
    ensures Verify(toAdd, before + toAdd) == Verdict(toAdd, [])
  {
    forall k | 0 <= k < |toAdd| ensures toAdd[k] in before + toAdd {
      assert (before + toAdd)[|before| + k] == toAdd[k];
    }
    VerifyAllFound(toAdd, before + toAdd);
  }

  /** On a well-terminated target, every appended key is found on reading back. */
  lemma DeploymentSucceeds(target: Option<string>, toAdd: seq<string>)
    requires WellTerminated(target) && AllCanonical(toAdd)
    ensures var d := Deployment(target, toAdd);
            d.succeeded == toAdd && d.failed == [] &&
            LoadLines(d.target) == TargetLines(target) + toAdd
  {
    AppendReadsBack(target, toAdd);
    FoundAfterAppend(TargetLines(target), toAdd);
  }

  lemma DeploySucceeds(keys: seq<string>, aliases: Aliases, selection: string, target: Option<string>)
    requires AllCanonical(keys) && WellTerminated(target)
    requires DeploySpec(keys, aliases, selection, target).Deployed?
    ensures var d := DeploySpec(keys, aliases, selection, target);
            d.succeeded == d.added && d.failed == [] &&
            LoadLines(d.target) == TargetLines(target) + d.added
  {
    var sel := ParseSelection(selection);
    DeployedAppendsMissing(keys, aliases, selection, target);
    SelectedCanonical(keys, sel);
    var selected := SelectedKeys(keys, sel).value;
    KeysToAddCanonical(selected, TargetLines(target));
    DeploymentSucceeds(target, KeysToAdd(selected, TargetLines(target)));
  }

  /** After the append, every selected key is either an old line or an appended one. */
  lemma AppendCoversSelection(selected: seq<string>, existing: seq<string>)
    ensures forall k :: 0 <= k < |selected| ==> selected[k] in existing + KeysToAdd(selected, existing)
  {
    var toAdd := KeysToAdd(selected, existing);
    forall k | 0 <= k < |selected| ensures selected[k] in existing + toAdd {
      var x := selected[k];
      if x !in existing {
        assert multiset(toAdd)[x] == multiset(selected)[x] > 0;
      }
    }
  }

  /** Deploying the same selection again right after a deploy adds nothing. */
  lemma DeployIdempotent(keys: seq<string>, aliases: Aliases, selection: string, target: Option<string>)
    requires AllCanonical(keys) && WellTerminated(target)
    requires DeploySpec(keys, aliases, selection, target).Deployed?
    ensures DeploySpec(keys, aliases, selection, Some(DeploySpec(keys, aliases, selection, target).target))
            == AlreadyDeployed
  {
    var d := DeploySpec(keys, aliases, selection, target);
    DeploySucceeds(keys, aliases, selection, target);
    DeployedAppendsMissing(keys, aliases, selection, target);
    var selected := SelectedKeys(keys, ParseSelection(selection)).value;
    AppendCoversSelection(selected, TargetLines(target));
    NothingToAdd(selected, LoadLines(d.target));
  }

  /** "1,1" and the like select a key once per mention, and a key the target lacks is
      then appended once per mention. */
  lemma RepeatedPickAppendsTwice(keys: seq<string>, k: nat, existing: seq<string>)
    requires k < |keys| && keys[k] !in existing
    ensures Picks(keys, [k, k]) == [keys[k], keys[k]]
    ensures KeysToAdd(Picks(keys, [k, k]), existing) == [keys[k], keys[k]]
  {
    assert [k, k][1..] == [k];
    assert [k][1..] == [];
    var two := [keys[k], keys[k]];
    assert two[1..] == [keys[k]];
    assert [keys[k]][1..] == [];
  }

  /** Appending to a target whose last line has no line break glues the first key onto
      that line: reading back gives the earlier lines and then the glued line, so the
      old last line is gone and the key is found only if an earlier line holds it. */
  lemma {:induction false} UnterminatedTargetGluesLines(front: string, last: string, key: string)
    requires EndsWithNewline(front) && CanonicalLine(last) && CanonicalLine(key)
    ensures LoadLines(front + last + AppendText([key])) == LoadLines(front) + [last + key]
    ensures key in LoadLines(front + last + AppendText([key])) <==> key in LoadLines(front)
    ensures last in LoadLines(front + last + AppendText([key])) <==> last in LoadLines(front)
  {
    assert AppendText([key]) == key + "\n" + AppendText([]);
    assert front + last + AppendText([key]) == front + ((last + key) + "\n" + "");
    assert '\n' !in last + key;
    assert CanonicalLine(last + key);
    LoadLeadingLine(last + key, "");
    assert LoadLines("") == [];
    LoadConcat(front, (last + key) + "\n" + "");
    assert |last + key| > |key| && |last + key| > |last|;
  }

  /** As written, deploying one key to a target whose last line is not terminated
      writes the key onto that line and, unless an earlier line already holds it,
      reports the key as failed. */
  lemma {:induction false} UnterminatedDeploymentFails(front: string, last: string, key: string)
    requires EndsWithNewline(front) && CanonicalLine(last) && CanonicalLine(key)
    requires key !in LoadLines(front)
    ensures Deployment(Some(front + last), [key]) == Deployed(front + last + key + "\n", [key], [], [key])
  {
    var written := front + last + AppendText([key]);
    UnterminatedTargetGluesLines(front, last, key);
    VerifyMissing(key, LoadLines(written));
    assert Deployment(Some(front + last), [key]) == Deployed(written, [key], [], [key]);
    AppendTextOne(key);
    assert written == front + last + key + "\n";
  }

  lemma AppendTextOne(key: string)
    ensures AppendText([key]) == key + "\n"
  {
    assert AppendText([key]) == key + "\n" + AppendText([]);
  }

  /** One appended key the target does not hold is reported failed. */
  lemma VerifyMissing(key: string, deployed: seq<string>)
    requires key !in deployed
    ensures Verify([key], deployed) == Verdict([], [key])
  {
    assert [key][1..] == [];
  }

  lemma AppendTextEndsWithNewline(keys: seq<string>)
    ensures EndsWithNewline(AppendText(keys))
  {
    if keys != [] {
      assert AppendText(keys) == (keys[0] + "\n") + AppendText(keys[1..]);
    }
  }

  /** The append as intended: a line break first when the target's last line lacks one. */
  function AppendOnNewLine(target: Option<string>, toAdd: seq<string>): (t: string)
    ensures EndsWithNewline(t)
  {
    var before := target.GetOr("");
    var sep := if EndsWithNewline(before) then "" else "\n";
    AppendTextEndsWithNewline(toAdd);
    before + sep + AppendText(toAdd)
  }

  /** Closing the last line of a text does not change what it loads as. */
  lemma LoadClosedLine(text: string)
    ensures LoadLines(text + "\n") == LoadLines(text)
  {
    assert text + "\n" == text + ['\n'] + "";
    LoadAfterBreak(text, "");
    assert text == text + [];
    assert LoadLines("") == [];
  }

  /** With the intended append, reading back finds the old lines and then every appended
      key, whatever the target's last line looked like. */
  lemma AppendOnNewLineReadsBack(target: Option<string>, toAdd: seq<string>)
    requires AllCanonical(toAdd)
    ensures LoadLines(AppendOnNewLine(target, toAdd)) == TargetLines(target) + toAdd
  {
    var before := target.GetOr("");
    var closed := if EndsWithNewline(before) then before else before + "\n";
    assert AppendOnNewLine(target, toAdd) == closed + AppendText(toAdd);
    assert LoadLines(closed) == LoadLines(before) by {
      if !EndsWithNewline(before) {
        LoadClosedLine(before);
      }
    }
    LoadConcat(closed, AppendText(toAdd));
    LoadAppendText(toAdd);
    if target.None? {
      assert LoadLines("") == [];
    }
  }

  /** The deployment as intended: the same check, after the intended append. */
  function IntendedDeployment(target: Option<string>, toAdd: seq<string>): (d: DeployOutcome)
    ensures d.Deployed? && d.added == toAdd
    ensures d.target == AppendOnNewLine(target, toAdd)
    ensures multiset(d.succeeded) + multiset(d.failed) == multiset(toAdd)
    ensures forall k :: 0 <= k < |d.succeeded| ==> d.succeeded[k] in LoadLines(d.target)
    ensures forall k :: 0 <= k < |d.failed| ==> d.failed[k] !in LoadLines(d.target)
  {
    var written := AppendOnNewLine(target, toAdd);
    var verdict := Verify(toAdd, LoadLines(written));
    VerifyPartition(toAdd, LoadLines(written));
    Deployed(written, toAdd, verdict.succeeded, verdict.failed)
  }

  /** With the intended append every key is reported deployed, on any target. */
  lemma IntendedDeploymentSucceeds(target: Option<string>, toAdd: seq<string>)
    requires AllCanonical(toAdd)
    ensures var d := IntendedDeployment(target, toAdd);
            d.succeeded == toAdd && d.failed == [] &&
            LoadLines(d.target) == TargetLines(target) + toAdd
  {
    AppendOnNewLineReadsBack(target, toAdd);
    FoundAfterAppend(TargetLines(target), toAdd);
  }
}

=== FILE: keyfile.dfy ===
/**
 * The line format of the inventory file (manage_keys.py:64-77) and of the deploy
 * target: `load_keys` keeps `line.strip()` for every line that is not blank, and
 * `save_keys` writes `'\n'.join(keys) + '\n'`. Reading a file line by line and
 * stripping each line is modelled as splitting on '\n' and stripping each piece:
 * the two agree, because the '\n' a line keeps is whitespace that `strip()` removes.
 */
module KeyFile {
  import opened Text

  /** A line as `load_keys` keeps it: non-empty, stripped, no line break. */
  predicate CanonicalLine(line: string) {
    line != "" && Trimmed(line) && '\n' !in line
  }

  predicate AllCanonical(lines: seq<string>) {
    forall i :: 0 <= i < |lines| ==> CanonicalLine(lines[i])
  }

  /** `[l.strip() for l in lines if l.strip()]` for lines without a line break. */
  function StrippedNonBlank(lines: seq<string>): (r: seq<string>)
    requires forall i :: 0 <= i < |lines| ==> '\n' !in lines[i]
    ensures AllCanonical(r) && |r| <= |lines|
    decreases |lines|
  {
    if lines == [] then []
    else
      var t := Strip(lines[0]);
      StripKeepsOut(lines[0], '\n');
      (if t == "" then [] else [t]) + StrippedNonBlank(lines[1..])
  }

  /** The keys `load_keys` reads from a file holding `text`. */
  function LoadLines(text: string): (keys: seq<string>)
    ensures AllCanonical(keys)
  {
    StrippedNonBlank(SplitOn(text, '\n'))
  }

  /** What `save_keys` writes for `keys`: one key per line and a final line break, so
      splitting the text gives the keys and then the empty piece after that break. */
  function Serialize(keys: seq<string>): (t: string)
    ensures t != [] && t[|t| - 1] == '\n'
    ensures (forall i :: 0 <= i < |keys| ==> '\n' !in keys[i]) ==>
              SplitOn(t, '\n') == (if keys == [] then [""] else keys) + [""]
  {
    var t := Join(keys, '\n') + "\n";
    assert t == Join(keys, '\n') + ['\n'] + "";
    SplitOnConcat(Join(keys, '\n'), '\n', "");
    if keys != [] && forall i :: 0 <= i < |keys| ==> '\n' !in keys[i] then
      SplitJoin(keys, '\n');
      t
    else t
  }

  /** Each key followed by a line break: what the deploy loop appends (manage_keys.py:310-311). */
  function AppendText(keys: seq<string>): string
    decreases |keys|
  {
    if keys == [] then "" else keys[0] + "\n" + AppendText(keys[1..])
  }

  /** One more line, for a loop that builds `StrippedNonBlank` front to back. */
  lemma StrippedNonBlankStep(lines: seq<string>, i: nat, acc: seq<string>)
    requires i < |lines|
    requires forall k :: 0 <= k < |lines| ==> '\n' !in lines[k]
    ensures Strip(lines[i]) == "" ==> acc + StrippedNonBlank(lines[i..]) == acc + StrippedNonBlank(lines[i + 1..])
    ensures Strip(lines[i]) != "" ==>
              acc + StrippedNonBlank(lines[i..]) == (acc + [Strip(lines[i])]) + StrippedNonBlank(lines[i + 1..])
  {
    assert lines[i..][1..] == lines[i + 1..];
  }

  /** One more key, for a loop that writes `AppendText` front to back. */
  lemma AppendTextStep(keys: seq<string>, i: nat, written: string)
    requires i < |keys|
    ensures written + AppendText(keys[i..]) == (written + keys[i] + "\n") + AppendText(keys[i + 1..])
  {
    assert keys[i..][1..] == keys[i + 1..];
  }

  /** A file ends where a line ends: empty, or its last character is a line break. */
  predicate EndsWithNewline(text: string) {
    text == [] || text[|text| - 1] == '\n'
  }

  lemma {:induction false} StrippedNonBlankConcat(a: seq<string>, b: seq<string>)
    requires forall i :: 0 <= i < |a| ==> '\n' !in a[i]
    requires forall i :: 0 <= i < |b| ==> '\n' !in b[i]
    ensures StrippedNonBlank(a + b) == StrippedNonBlank(a) + StrippedNonBlank(b)
    decreases |a|
  {
    if a == [] {
      assert a + b == b;
    } else {
      var ab := a + b;
      assert ab[0] == a[0] && ab[1..] == a[1..] + b;
      StrippedNonBlankConcat(a[1..], b);
      var t := Strip(a[0]);
      var x: seq<string> := if t == "" then [] else [t];
      assert StrippedNonBlank(ab) == x + StrippedNonBlank(a[1..] + b);
      assert StrippedNonBlank(a) == x + StrippedNonBlank(a[1..]);
      assert x + (StrippedNonBlank(a[1..]) + StrippedNonBlank(b)) ==
             (x + StrippedNonBlank(a[1..])) + StrippedNonBlank(b);
    }
  }

  /** Text after a line break loads on its own, after the lines before the break. */
  lemma LoadAfterBreak(front: string, b: string)
    ensures LoadLines(front + ['\n'] + b) == StrippedNonBlank(SplitOn(front, '\n')) + LoadLines(b)
  {
    SplitOnConcat(front, '\n', b);
    StrippedNonBlankConcat(SplitOn(front, '\n'), SplitOn(b, '\n'));
  }

  /** Loading text that ends on a line boundary and then more text loads the two parts
      one after the other: appending never disturbs the lines already there. */
  lemma LoadConcat(a: string, b: string)
    requires EndsWithNewline(a)
    ensures LoadLines(a + b) == LoadLines(a) + LoadLines(b)
  {
    if a == [] {
      assert a + b == b;
    } else {
      var front := a[..|a| - 1];
      assert a == front + ['\n'] + "";
      assert a + b == front + ['\n'] + b;
      LoadAfterBreak(front, "");
      LoadAfterBreak(front, b);
      assert LoadLines("") == [];
    }
  }

  /** A canonical line followed by a line break loads as itself, then the rest. */
  lemma LoadLeadingLine(k: string, rest: string)
    requires CanonicalLine(k)
    ensures LoadLines(k + "\n" + rest) == [k] + LoadLines(rest)
  {
    assert k + "\n" + rest == k + ['\n'] + rest;
    SplitOnConcat(k, '\n', rest);
    SplitOnNoSep(k, '\n');
    StrippedNonBlankConcat([k], SplitOn(rest, '\n'));
    assert StrippedNonBlank([k]) == [k];
  }

  /** Loading what the deploy loop appends gives back exactly the appended keys. */
  lemma {:induction false} LoadAppendText(keys: seq<string>)
    requires AllCanonical(keys)
    ensures LoadLines(AppendText(keys)) == keys
    decreases |keys|
  {
    if keys == [] {
      assert LoadLines("") == [];
    } else {
      assert CanonicalLine(keys[0]);
      assert AllCanonical(keys[1..]);
      LoadLeadingLine(keys[0], AppendText(keys[1..]));
      LoadAppendText(keys[1..]);
      assert AppendText(keys) == keys[0] + "\n" + AppendText(keys[1..]);
      assert keys == [keys[0]] + keys[1..];
    }
  }

  lemma {:induction false} SerializeIsAppendText(keys: seq<string>)
    requires keys != []
    ensures Serialize(keys) == AppendText(keys)
    decreases |keys|
  {
    if |keys| > 1 {
      SerializeIsAppendText(keys[1..]);
      assert Serialize(keys) == keys[0] + "\n" + Serialize(keys[1..]);
    }
  }

  /** Round trip: loading what `save_keys` wrote gives back the same list for lines
      that are non-empty, stripped and free of line breaks; an empty list is written
      as a lone "\n", which loads back as nothing. */
  lemma SaveLoadRoundTrip(keys: seq<string>)
    requires AllCanonical(keys)
    ensures LoadLines(Serialize(keys)) == keys
    ensures keys == [] ==> Serialize(keys) == "\n"
  {
    if keys == [] {
      assert Serialize(keys) == "" + ['\n'] + "";
      SplitOnConcat("", '\n', "");
      assert StrippedNonBlank(["", ""]) == [];
    } else {
      SerializeIsAppendText(keys);
      LoadAppendText(keys);
    }
  }

  /** Saving what was loaded and loading again reads the same keys. */
  lemma ReloadIsStable(text: string)
    ensures LoadLines(Serialize(LoadLines(text))) == LoadLines(text)
  {
    SaveLoadRoundTrip(LoadLines(text));
  }
}

=== FILE: keyline.dfy ===
/**
 * One line of the inventory: `<type> <base64 material> [<comment>]`, treated as an
 * opaque string except for its whitespace-separated fields. Its display name is the
 * last field when there are more than two (manage_keys.py:157-160); its identity, used
 * to recognise the same key under another comment, is the first two fields
 * (manage_keys.py:162-167); `find_existing_key` looks an identity up in a list
 * (manage_keys.py:169-179).
 */
module KeyLine {
  import opened Wrappers
  import opened Text

  /** The type and base64 material of a key: what de-duplication compares. */
  datatype Identity = Identity(keyType: string, data: string)

  /** `get_key_name`: the last field of a line with more than two fields, else "Unknown". */
  function KeyName(key: string): (name: string)
    ensures |Words(key)| > 2 ==> name == Words(key)[|Words(key)| - 1]
    ensures |Words(key)| <= 2 ==> name == "Unknown"
  {
    var parts := Words(Strip(key));
    WordsStrip(key);
    if |parts| > 2 then parts[|parts| - 1] else "Unknown"
  }

  /** `get_key_parts`: the first two fields, or nothing (Python's `(None, None)`) for a
      line with fewer than two. */
  function KeyParts(key: string): (id: Option<Identity>)
    ensures id.Some? <==> |Words(key)| >= 2
    ensures id.Some? ==> id.value == Identity(Words(key)[0], Words(key)[1])
  {
    var parts := Words(Strip(key));
    WordsStrip(key);
    if |parts| >= 2 then Some(Identity(parts[0], parts[1])) else None
  }

  /** A key line splits into its type, its material, then the words of its comment. */
  lemma {:induction false} KeyLineWords(keyType: string, data: string, comment: string)
    requires IsToken(keyType) && IsToken(data)
    requires comment == [] || IsSpace(comment[0])
    ensures Words(keyType + " " + data + comment) == [keyType, data] + Words(comment)
  {
    Regroup(keyType + " ", data, comment);
    WordsAfterToken(keyType, data + comment);
    WordsOfToken(data, comment);
    assert [keyType] + ([data] + Words(comment)) == [keyType, data] + Words(comment);
  }

  lemma Regroup(a: string, b: string, c: string)
    ensures a + b + c == a + (b + c)
  {
  }

  /** A word, one space, then anything: the word and then the words of the rest. */
  lemma {:induction false} WordsAfterToken(w: string, rest: string)
    requires IsToken(w)
    ensures Words(w + " " + rest) == [w] + Words(rest)
  {
    assert w + " " + rest == w + ([' '] + rest);
    WordsSkipSpace(' ', rest);
    WordsOfToken(w, [' '] + rest);
  }

  /** Whatever follows the material after whitespace, the identity is the first two
      fields verbatim, and the name is the last word of that comment, or "Unknown". */
  lemma KeyLineFields(keyType: string, data: string, comment: string)
    requires IsToken(keyType) && IsToken(data)
    requires comment == [] || IsSpace(comment[0])
    ensures KeyParts(keyType + " " + data + comment) == Some(Identity(keyType, data))
    ensures KeyName(keyType + " " + data + comment) ==
            if Words(comment) == [] then "Unknown" else Words(comment)[|Words(comment)| - 1]
  {
    KeyLineWords(keyType, data, comment);
  }

  /** Two lines that differ only in their comment have the same identity. */
  lemma CommentDoesNotChangeIdentity(keyType: string, data: string, c1: string, c2: string)
    requires IsToken(keyType) && IsToken(data)
    requires c1 == [] || IsSpace(c1[0])
    requires c2 == [] || IsSpace(c2[0])
    ensures KeyParts(keyType + " " + data + c1) == KeyParts(keyType + " " + data + c2)
  {
    KeyLineFields(keyType, data, c1);
    KeyLineFields(keyType, data, c2);
  }

  /** The position, counting from `from`, of the first line of `keys` with identity `id`. */
  function MatchFrom(keys: seq<string>, id: Identity, from: nat): (r: Option<nat>)
    requires from <= |keys|
    ensures r.Some? ==> from <= r.value < |keys| && KeyParts(keys[r.value]) == Some(id)
    ensures r.Some? ==> forall j :: from <= j < r.value ==> KeyParts(keys[j]) != Some(id)
    ensures r.None? ==> forall j :: from <= j < |keys| ==> KeyParts(keys[j]) != Some(id)
    decreases |keys| - from
  {
    if from == |keys| then None
    else if KeyParts(keys[from]) == Some(id) then Some(from)
    else MatchFrom(keys, id, from + 1)
  }

  /** What `find_existing_key` answers: the least index whose identity equals the
      candidate's; nothing when the candidate has no identity. */
  function FirstMatch(keys: seq<string>, key: string): (r: Option<nat>)
    ensures r.Some? ==> r.value < |keys| && KeyParts(key).Some? &&
                        KeyParts(keys[r.value]) == KeyParts(key)
    ensures r.Some? ==> forall j :: 0 <= j < r.value ==> KeyParts(keys[j]) != KeyParts(key)
    ensures r.None? ==> KeyParts(key).None? ||
                        forall j :: 0 <= j < |keys| ==> KeyParts(keys[j]) != KeyParts(key)
  {
    match KeyParts(key)
    case None => None
    case Some(id) => MatchFrom(keys, id, 0)
  }

  /** The contract above pins the answer down: any index with those properties is it. */
  lemma FirstMatchUnique(keys: seq<string>, key: string, k: nat)
    requires k < |keys| && KeyParts(key).Some? && KeyParts(keys[k]) == KeyParts(key)
    requires forall j :: 0 <= j < k ==> KeyParts(keys[j]) != KeyParts(key)
    ensures FirstMatch(keys, key) == Some(k)
  {
    var r := FirstMatch(keys, key);
    assert r.Some? ==> r.value <= k;
    assert r.Some? ==> r.value >= k;
  }
}

=== FILE: keystore.dfy ===
/**
 * The in-memory inventory of the key manager: the key lines in file order
 * (`self.keys`) and, beside them, one metadata entry per display name
 * (`self.aliases`, manage_keys.py:26). An entry is normally a record with optional
 * "alias", "expiry" and "added" strings, but `set_alias` stores a bare string in
 * its place (manage_keys.py:374), so an entry has two shapes.
 */
module KeyStore {
  import opened Wrappers
  import opened Text
  import opened KeyLine

  datatype Metadata =
    | Record(alias: Option<string>, expiry: Option<string>, added: Option<string>)
    | BareAlias(text: string)

  type Aliases = map<string, Metadata>

  /** The two collections the manager mutates, taken together. */
  datatype Inventory = Inventory(keys: seq<string>, aliases: Aliases)

  /** The `{}` that `set_expiry` creates for a name without metadata. */
  const EmptyRecord: Metadata := Record(None, None, None)

  /** `del s[i]`. */
  function RemoveAt(s: seq<string>, i: nat): (r: seq<string>)
    requires i < |s|
    ensures |r| == |s| - 1
    ensures forall k :: 0 <= k < i ==> r[k] == s[k]
    ensures forall k :: i <= k < |r| ==> r[k] == s[k + 1]
  {
    s[..i] + s[i + 1..]
  }

  lemma RemoveAtMultiset(s: seq<string>, i: nat)
    requires i < |s|
    ensures multiset(RemoveAt(s, i)) == multiset(s) - multiset{s[i]}
  {
    assert s == s[..i] + [s[i]] + s[i + 1..];
  }

  /** `self.aliases.get(name, {}).get('alias', '')`, as the listings read it
      (manage_keys.py:106, 110-111, 267, 389): the alias of a record, "" when there is
      none, and nothing at all (the AttributeError) when the entry is a bare string. */
  function ShownAlias(aliases: Aliases, name: string): (r: Option<string>)
    ensures r.None? <==> name in aliases && aliases[name].BareAlias?
    ensures r.Some? && r.value != "" ==> name in aliases && aliases[name].alias == Some(r.value)
    ensures name !in aliases ==> r == Some("")
    ensures name in aliases && aliases[name].Record? ==> r == Some(aliases[name].alias.GetOr(""))
  {
    if name !in aliases then Some("")
    else match aliases[name]
      case BareAlias(_) => None
      case Record(alias, _, _) => Some(alias.GetOr(""))
  }

  /** Listing `keys` with their aliases raises as soon as one of their names maps to a
      bare string. */
  predicate ListingCrashes(keys: seq<string>, aliases: Aliases)
    ensures ListingCrashes(keys, aliases) <==>
              exists i :: 0 <= i < |keys| && KeyName(keys[i]) in aliases && aliases[KeyName(keys[i])].BareAlias?
  {
    exists i :: 0 <= i < |keys| && ShownAlias(aliases, KeyName(keys[i])).None?
  }

  /** The metadata `capture_keys` records for a key (manage_keys.py:237-249): the
      stamp, and the stripped alias and expiry answers when they are not blank. */
  function NewRecord(aliasAnswer: string, expiryAnswer: string, stamp: string): (m: Metadata)
    ensures m.Record? && m.added == Some(stamp)
    ensures m.alias.Some? <==> Strip(aliasAnswer) != ""
    ensures m.alias.Some? ==> m.alias.value == Strip(aliasAnswer) && Trimmed(m.alias.value)
    ensures m.expiry.Some? <==> Strip(expiryAnswer) != ""
    ensures m.expiry.Some? ==> m.expiry.value == Strip(expiryAnswer)
  {
    var alias := Strip(aliasAnswer);
    var expiry := Strip(expiryAnswer);
    Record(if alias != "" then Some(alias) else None,
           if expiry != "" then Some(expiry) else None,
           Some(stamp))
  }

  /** `set_expiry` on the metadata (manage_keys.py:129-133): an empty record is created
      for a missing name, then its "expiry" is set; a bare string cannot take an item
      assignment, which is the `None` (the TypeError). Only that one entry changes. */
  function SetExpiryOn(aliases: Aliases, name: string, date: string): (r: Option<Aliases>)
    ensures r.None? <==> name in aliases && aliases[name].BareAlias?
    ensures r.Some? ==> r.value.Keys == aliases.Keys + {name}
    ensures r.Some? ==> r.value[name].Record? && r.value[name].expiry == Some(date)
    ensures r.Some? && name in aliases ==>
              r.value[name].alias == aliases[name].alias && r.value[name].added == aliases[name].added
    ensures r.Some? && name !in aliases ==> r.value[name] == Record(None, Some(date), None)
    ensures r.Some? ==> forall n :: n in aliases && n != name ==> r.value[n] == aliases[n]
  {
    var current := if name in aliases then aliases[name] else EmptyRecord;
    match current
    case BareAlias(_) => None
    case Record(alias, _, added) => Some(aliases[name := Record(alias, Some(date), added)])
  }

  /** As written, `set_alias` (manage_keys.py:371-374) stores the alias as a bare string
      under the key's name; afterwards every listing that reads aliases with
      `.get(name, {}).get('alias', '')` (those of `list_keys`, `deploy_keys` and
      `delete_keys`) raises when it reaches that key. */
  lemma BareAliasBreaksListing(keys: seq<string>, aliases: Aliases, i: nat, alias: string)
    requires i < |keys|
    ensures ListingCrashes(keys, aliases[KeyName(keys[i]) := BareAlias(alias)])
  {
    assert ShownAlias(aliases[KeyName(keys[i]) := BareAlias(alias)], KeyName(keys[i])).None?;
  }

  /** What `set_alias` evidently means to do, in the shape the other readers and writers
      of the metadata expect: the "alias" item of the name's record is set, a record is created when
      there is none (or only a bare string), and the other items are kept. */
  function SetAliasOn(aliases: Aliases, name: string, alias: string): (r: Aliases)
    ensures r.Keys == aliases.Keys + {name}
    ensures r[name].Record? && r[name].alias == Some(alias)
    ensures name in aliases && aliases[name].Record? ==>
              r[name].expiry == aliases[name].expiry && r[name].added == aliases[name].added
    ensures forall n :: n in aliases && n != name ==> r[n] == aliases[n]
  {
    var current := if name in aliases && aliases[name].Record? then aliases[name] else EmptyRecord;
    aliases[name := Record(Some(alias), current.expiry, current.added)]
  }

  /** With the intended update, a listing that did not raise still does not, and it
      shows the new alias for that name. */
  lemma SetAliasOnKeepsListing(keys: seq<string>, aliases: Aliases, name: string, alias: string)
    requires !ListingCrashes(keys, aliases)
    ensures !ListingCrashes(keys, SetAliasOn(aliases, name, alias))
    ensures ShownAlias(SetAliasOn(aliases, name, alias), name) == Some(alias)
  {
    var r := SetAliasOn(aliases, name, alias);
    forall i | 0 <= i < |keys| ensures ShownAlias(r, KeyName(keys[i])).Some? {
      assert ShownAlias(aliases, KeyName(keys[i])).Some?;
    }
  }

  /** Setting an expiry twice keeps only the second date. */
  lemma SetExpiryLastWins(aliases: Aliases, name: string, d1: string, d2: string)
    requires SetExpiryOn(aliases, name, d1).Some?
    ensures SetExpiryOn(SetExpiryOn(aliases, name, d1).value, name, d2) == SetExpiryOn(aliases, name, d2)
  {
    var once := SetExpiryOn(aliases, name, d1).value;
    var twice := SetExpiryOn(once, name, d2).value;
    var direct := SetExpiryOn(aliases, name, d2).value;
    assert twice[name] == direct[name] by {
      if name in aliases {
        assert once[name].alias == aliases[name].alias && once[name].added == aliases[name].added;
      }
    }
    assert twice.Keys == direct.Keys;
    assert forall n :: n in twice ==> twice[n] == direct[n];
    assert twice == direct;
  }
}

=== FILE: manager.dfy ===
/**
 * `SSHKeyManager` (manage_keys.py:21-608) as a class over what it changes: the key
 * lines and the metadata in memory, and the three things it writes in the repository,
 * `authorized_keys`, `key_aliases.json` and the backup copies. Each menu operation is
 * a method whose answers to `input()` are parameters; what the user is shown is its
 * outcome. An exception the source does not catch ends the program, so an operation
 * that raises reports it in its outcome and changes nothing after the point of failure.
 */
module Manager {
  import opened Wrappers
  import opened Text
  import opened Numerals
  import opened KeyLine
  import opened KeyFile
  import opened KeyStore
  import opened Selection
  import opened Search
  import opened Capture
  import opened Deletion
  import opened Deploy

  /** What `key_aliases.json` holds: no file, text that does not decode, or a map. */
  datatype Sidecar = NoSidecar | Malformed | Stored(entries: Aliases)

  /** The keys `load_keys` reads: none when `authorized_keys` is missing. */
  function KeysIn(keysFile: Option<string>): (keys: seq<string>)
    ensures AllCanonical(keys)
  {
    match keysFile
    case None => []
    case Some(text) => LoadLines(text)
  }

  datatype ExpiryOutcome = InvalidIndex | ExpiryRejected | ExpirySet(name: string)

  datatype AliasOutcome = NoKeysToAlias | NotANumber | OutOfRange | BlankAlias | AliasSet(name: string, alias: string)

  datatype CaptureOutcome = NoSystemKeys | NothingSelected | BadSelection | Captured(added: seq<string>, saved: bool)

  datatype DeleteOutcome =
    | NoKeysToDelete
    | DeleteListingCrashed
    | NothingChosen
    | BadChoice
    | Cancelled
    | Deleted(removed: seq<string>, saved: bool)

  /** Which system keys the capture loop visits (manage_keys.py:203-215), or why
      `capture_keys` stops before it. */
  datatype CapturePlan = CaptureHalt(outcome: CaptureOutcome) | CaptureOver(indices: seq<int>)

  function PlanCapture(systemKeys: seq<string>, selection: string): (p: CapturePlan)
    ensures p.CaptureHalt? ==> !p.outcome.Captured?
    ensures p.CaptureOver? ==> systemKeys != [] && p.indices != []
    ensures systemKeys != [] && Lower(Strip(selection)) == "all" ==> p == CaptureOver(Range(|systemKeys|))
  {
    if systemKeys == [] then CaptureHalt(NoSystemKeys)
    else match ParseSelection(selection)
      case Blank => CaptureHalt(NothingSelected)
      case Invalid => CaptureHalt(BadSelection)
      case All => CaptureOver(Range(|systemKeys|))
      case Numbers(indices) => CaptureOver(indices)
  }

  /** Which indices the deletion loop is fed (manage_keys.py:392-429), or why
      `delete_keys` stops before it. */
  datatype DeletePlan = DeleteHalt(outcome: DeleteOutcome) | DeleteOver(toDelete: seq<int>)

  function PlanDeletion(keys: seq<string>, aliases: Aliases, selection: string, confirm: string): (p: DeletePlan)
    ensures p.DeleteHalt? ==> !p.outcome.Deleted?
    ensures p.DeleteOver? ==> keys != [] && !ListingCrashes(keys, aliases) && Lower(confirm) == "yes"
    ensures p.DeleteOver? && ParseSelection(selection).Numbers? ==>
              multiset(p.toDelete) == multiset(ParseSelection(selection).indices) &&
              forall i :: 0 <= i < |p.toDelete| - 1 ==> p.toDelete[i] >= p.toDelete[i + 1]
  {
    if keys == [] then DeleteHalt(NoKeysToDelete)
    else if ListingCrashes(keys, aliases) then DeleteHalt(DeleteListingCrashed)
    else match ParseSelection(selection)
      case Blank => DeleteHalt(NothingChosen)
      case Invalid => DeleteHalt(BadChoice)
      case All => if Lower(confirm) == "yes" then DeleteOver(Range(|keys|)) else DeleteHalt(Cancelled)
      case Numbers(indices) => if Lower(confirm) == "yes" then DeleteOver(SortDesc(indices)) else DeleteHalt(Cancelled)
  }

  /** Anything but "yes", in any case, cancels a deletion before the loop runs. */
  lemma ConfirmationRequired(keys: seq<string>, aliases: Aliases, selection: string, confirm: string)
    requires Lower(confirm) != "yes"
    ensures PlanDeletion(keys, aliases, selection, confirm).DeleteHalt?
  {
  }

  /** A confirmed "all" feeds the ascending positions, so (as written) only the keys at
      even positions go and the odd ones stay. */
  lemma DeleteAllPlan(keys: seq<string>, aliases: Aliases, selection: string, confirm: string)
    requires keys != [] && !ListingCrashes(keys, aliases)
    requires Lower(Strip(selection)) == "all" && Lower(confirm) == "yes"
    ensures PlanDeletion(keys, aliases, selection, confirm) == DeleteOver(Range(|keys|))
    ensures DeleteFrom(Inventory(keys, aliases), Range(|keys|), 0).inv.keys == OddPositions(keys)
  {
    ParseAll(selection);
    DeleteAllKeepsOddPositions(Inventory(keys, aliases));
  }

  /** `keys_to_add` (manage_keys.py:303), one key at a time. */
  method FilterNew(selected: seq<string>, existing: seq<string>) returns (toAdd: seq<string>)
    ensures toAdd == KeysToAdd(selected, existing)
  {
    toAdd := [];
    var i := 0;
    while i < |selected|
      invariant 0 <= i <= |selected|
      invariant KeysToAdd(selected, existing) == toAdd + KeysToAdd(selected[i..], existing)
    {
      KeysToAddStep(selected, existing, i, toAdd);
      if selected[i] !in existing {
        toAdd := toAdd + [selected[i]];
      }
      i := i + 1;
    }
    assert selected[i..] == [];
  }

  /** The append loop of manage_keys.py:309-311, on the target's text. */
  method AppendKeys(before: string, toAdd: seq<string>) returns (written: string)
    ensures written == before + AppendText(toAdd)
  {
    written := before;
    var i := 0;
    while i < |toAdd|
      invariant 0 <= i <= |toAdd|
      invariant before + AppendText(toAdd) == written + AppendText(toAdd[i..])
    {
      AppendTextStep(toAdd, i, written);
      written := written + toAdd[i] + "\n";
      i := i + 1;
    }
    assert toAdd[i..] == [];
  }

  /** The verification loop of manage_keys.py:324-332. */
  method CheckDeployed(toAdd: seq<string>, deployed: seq<string>) returns (v: Verdict)
    ensures v == Verify(toAdd, deployed)
  {
    var succeeded: seq<string> := [];
    var failed: seq<string> := [];
    var i := 0;
    while i < |toAdd|
      invariant 0 <= i <= |toAdd|
      invariant Verify(toAdd, deployed).succeeded == succeeded + Verify(toAdd[i..], deployed).succeeded
      invariant Verify(toAdd, deployed).failed == failed + Verify(toAdd[i..], deployed).failed
    {
      VerifyStep(toAdd, deployed, i, succeeded, failed);
      if toAdd[i] in deployed {
        succeeded := succeeded + [toAdd[i]];
      } else {
        failed := failed + [toAdd[i]];
      }
      i := i + 1;
    }
    assert toAdd[i..] == [];
    v := Verdict(succeeded, failed);
  }

  class KeyManager {
    /** `self.keys`: the inventory's lines, in file order. */
    var keys: seq<string>
    /** `self.aliases`: metadata by display name. */
    var aliases: Aliases
    /** The repository's `authorized_keys`, when it exists. */
    var keysFile: Option<string>
    /** The repository's `key_aliases.json`. */
    var sidecar: Sidecar
    /** The contents copied into `.key_backups`, oldest first. */
    var backups: seq<string>

    function Inv(): Inventory
      reads this
    {
      Inventory(keys, aliases)
    }

    /** `__init__` without the visibility check: `load_keys` then `load_aliases`. */
    constructor (keysFile: Option<string>, sidecar: Sidecar)
      ensures this.keysFile == keysFile && this.sidecar == sidecar && backups == []
      ensures keys == KeysIn(keysFile)
      ensures aliases == if sidecar.Stored? then sidecar.entries else map[]
    {
      this.keysFile := keysFile;
      this.sidecar := sidecar;
      backups := [];
      keys := [];
      aliases := map[];
      new;
      LoadKeys();
      LoadAliases();
    }

    /** `load_keys` (manage_keys.py:64-71): the stripped, non-blank lines of the file. */
    method LoadKeys()
      modifies this`keys
      ensures keys == KeysIn(keysFile)
    {
      match keysFile {
        case None =>
          keys := [];
        case Some(text) =>
          var lines := SplitOn(text, '\n');
          var loaded: seq<string> := [];
          var i := 0;
          while i < |lines|
            invariant 0 <= i <= |lines|
            invariant StrippedNonBlank(lines) == loaded + StrippedNonBlank(lines[i..])
          {
            StrippedNonBlankStep(lines, i, loaded);
            var t := Strip(lines[i]);
            if t != "" {
              loaded := loaded + [t];
            }
            i := i + 1;
          }
          assert lines[i..] == [];
          keys := loaded;
      }
    }

    /** `load_aliases` (manage_keys.py:40-47): a map that decodes replaces the metadata;
        a missing or malformed file leaves it as it was. */
    method LoadAliases()
      modifies this`aliases
      ensures aliases == if sidecar.Stored? then sidecar.entries else old(aliases)
    {
      if sidecar.Stored? {
        aliases := sidecar.entries;
      }
    }

    /** `save_aliases` (manage_keys.py:49-52). */
    method SaveAliases()
      modifies this`sidecar
      ensures sidecar == Stored(aliases)
    {
      sidecar := Stored(aliases);
    }

    /** `create_backup` (manage_keys.py:54-62): a copy of `authorized_keys`; copying a
        file that does not exist raises, which `ok` reports. */
    method CreateBackup() returns (ok: bool)
      modifies this`backups
      ensures ok <==> keysFile.Some?
      ensures ok ==> backups == old(backups) + [keysFile.value]
      ensures !ok ==> backups == old(backups)
    {
      match keysFile {
        case None => ok := false;
        case Some(text) =>
          backups := backups + [text];
          ok := true;
      }
    }

    /** `save_keys` (manage_keys.py:73-77): back up, write the lines, save the
        metadata. Reading the file back gives the same keys when every line is one a
        load could have produced. */
    method SaveKeys() returns (ok: bool)
      modifies this`backups, this`keysFile, this`sidecar
      ensures ok <==> old(keysFile).Some?
      ensures !ok ==> backups == old(backups) && keysFile == old(keysFile) && sidecar == old(sidecar)
      ensures ok ==> backups == old(backups) + [old(keysFile).value] &&
                     keysFile == Some(Serialize(keys)) && sidecar == Stored(aliases)
      ensures ok && AllCanonical(keys) ==> KeysIn(keysFile) == keys
    {
      ok := CreateBackup();
      if !ok {
        return;
      }
      keysFile := Some(Serialize(keys));
      if AllCanonical(keys) {
        SaveLoadRoundTrip(keys);
      }
      SaveAliases();
    }

    /** `find_existing_key` (manage_keys.py:169-179). */
    method FindExistingKey(newKey: string) returns (idx: Option<nat>)
      ensures idx == FirstMatch(keys, newKey)
    {
      match KeyParts(newKey) {
        case None =>
          return None;
        case Some(id) =>
          var i := 0;
          while i < |keys|
            invariant 0 <= i <= |keys|
            invariant MatchFrom(keys, id, 0) == MatchFrom(keys, id, i)
          {
            if KeyParts(keys[i]) == Some(id) {
              return Some(i);
            }
            i := i + 1;
          }
          return None;
      }
    }

    /** Whether printing the keys with their aliases raises, as the menus of
        manage_keys.py:265-268 and 387-390 do before asking anything. */
    method ListingRaises() returns (raises: bool)
      ensures raises == ListingCrashes(keys, aliases)
    {
      var i := 0;
      while i < |keys|
        invariant 0 <= i <= |keys|
        invariant forall p :: 0 <= p < i ==> ShownAlias(aliases, KeyName(keys[p])).Some?
      {
        if ShownAlias(aliases, KeyName(keys[i])).None? {
          return true;
        }
        i := i + 1;
      }
      return false;
    }

    /** `list_keys(search)` (manage_keys.py:95-121): the numbers it prints. */
    method ListKeys(search: string) returns (listing: Listing)
      ensures listing == ListKeysSpec(keys, aliases, search)
    {
      ghost var visits := Visits(keys, aliases, search);
      var shown: seq<nat> := [];
      var i := 0;
      while i < |keys|
        invariant 0 <= i <= |keys|
        invariant ListFrom(visits, 0).shown == shown + ListFrom(visits, i).shown
        invariant ListFrom(visits, 0).crashed == ListFrom(visits, i).crashed
      {
        var v := VisitAt(i, search, visits);
        ListFromStep(visits, i, shown);
        if v == Crash {
          assert shown + [] == shown;
          return Listing(shown, true);
        } else if v == Show {
          shown := shown + [i + 1];
        }
        i := i + 1;
      }
      assert ListFrom(visits, i) == Listing([], false);
      assert shown + [] == shown;
      listing := Listing(shown, false);
    }

    /** One pass of the listing loop (manage_keys.py:104-112) over the key at `i`. */
    method VisitAt(i: nat, search: string, ghost visits: seq<Visit>) returns (v: Visit)
      requires i < |keys| && visits == Visits(keys, aliases, search)
      ensures i < |visits| && v == visits[i]
    {
      v := VisitKey(keys[i], aliases, search);
      VisitsAt(keys, aliases, search, i);
    }

    /** `set_expiry` (manage_keys.py:123-135). */
    method SetExpiry(keyIdx: int, date: string) returns (outcome: ExpiryOutcome)
      modifies this`aliases, this`sidecar
      ensures !(0 <= keyIdx < |keys|) ==> outcome == InvalidIndex && aliases == old(aliases) && sidecar == old(sidecar)
      ensures 0 <= keyIdx < |keys| ==>
                match SetExpiryOn(old(aliases), KeyName(keys[keyIdx]), date)
                case None => outcome == ExpiryRejected && aliases == old(aliases) && sidecar == old(sidecar)
                case Some(updated) => outcome == ExpirySet(KeyName(keys[keyIdx])) && aliases == updated &&
                                      sidecar == Stored(updated)
    {
      if !(0 <= keyIdx < |keys|) {
        return InvalidIndex;
      }
      var name := KeyName(keys[keyIdx]);
      match SetExpiryOn(aliases, name, date) {
        case None =>
          return ExpiryRejected;
        case Some(updated) =>
          aliases := updated;
      }
      SaveAliases();
      outcome := ExpirySet(name);
    }

    /** `set_alias` (manage_keys.py:355-378), as written: the alias replaces the
        metadata as a bare string, nothing is saved, and from then on every listing that
        reads the alias with `.get('alias')` (list, deploy, delete) raises on that key. */
    method SetAlias(selection: string, aliasAnswer: string) returns (outcome: AliasOutcome)
      modifies this`aliases
      ensures keys == [] ==> outcome == NoKeysToAlias
      ensures keys != [] && ParseInt(selection).None? ==> outcome == NotANumber
      ensures keys != [] && ParseInt(selection).Some? && !(0 <= ParseInt(selection).value - 1 < |keys|) ==>
                outcome == OutOfRange
      ensures keys != [] && ParseInt(selection).Some? && 0 <= ParseInt(selection).value - 1 < |keys| ==>
                outcome == if Strip(aliasAnswer) == "" then BlankAlias
                           else AliasSet(KeyName(keys[ParseInt(selection).value - 1]), Strip(aliasAnswer))
      ensures !outcome.AliasSet? ==> aliases == old(aliases)
      ensures outcome.AliasSet? ==> aliases == old(aliases)[outcome.name := BareAlias(outcome.alias)]
      ensures outcome.AliasSet? ==> ListingCrashes(keys, aliases)
    {
      if keys == [] {
        return NoKeysToAlias;
      }
      var number := ParseInt(selection);
      if number.None? {
        return NotANumber;
      }
      var idx := number.value - 1;
      if !(0 <= idx < |keys|) {
        return OutOfRange;
      }
      var name := KeyName(keys[idx]);
      var alias := Strip(aliasAnswer);
      if alias == "" {
        return BlankAlias;
      }
      aliases := aliases[name := BareAlias(alias)];
      assert ShownAlias(aliases, KeyName(keys[idx])).None?;
      outcome := AliasSet(name, alias);
    }

    /** `capture_keys` (manage_keys.py:192-256) over the system's public keys, the
        typed selection and the answers given in each pass. */
    method CaptureKeys(systemKeys: seq<string>, selection: string, answers: seq<CaptureAnswer>)
      returns (outcome: CaptureOutcome)
      modifies this`keys, this`aliases, this`keysFile, this`sidecar, this`backups
      ensures PlanCapture(systemKeys, selection).CaptureHalt? ==>
                outcome == PlanCapture(systemKeys, selection).outcome &&
                keys == old(keys) && aliases == old(aliases) &&
                keysFile == old(keysFile) && sidecar == old(sidecar) && backups == old(backups)
      ensures PlanCapture(systemKeys, selection).CaptureOver? ==>
                var run := CaptureFrom(Inventory(old(keys), old(aliases)), systemKeys,
                                       PlanCapture(systemKeys, selection).indices, answers, 0);
                Inv() == run.inv && outcome.Captured? && outcome.added == run.added
      ensures DistinctIdentities(old(keys)) ==> DistinctIdentities(keys)
      ensures outcome.Captured? && outcome.added == [] ==>
                !outcome.saved && keysFile == old(keysFile) && sidecar == old(sidecar) && backups == old(backups)
      ensures outcome.Captured? && !outcome.saved ==>
                keysFile == old(keysFile) && sidecar == old(sidecar) && backups == old(backups)
      ensures outcome.Captured? && outcome.added != [] ==>
                (outcome.saved <==> old(keysFile).Some?) &&
                (outcome.saved ==> keysFile == Some(Serialize(keys)) && sidecar == Stored(aliases) &&
                                   backups == old(backups) + [old(keysFile).value])
    {
      var plan := PlanCapture(systemKeys, selection);
      if plan.CaptureHalt? {
        return plan.outcome;
      }
      var indices := plan.indices;
      ghost var start := Inv();
      var added := CaptureLoop(systemKeys, indices, answers);
      if DistinctIdentities(start.keys) {
        CaptureFromKeepsIdentitiesDistinct(start, systemKeys, indices, answers, 0);
      }
      var saved := false;
      if added != [] {
        saved := SaveKeys();
      }
      outcome := Captured(added, saved);
    }

    /** The loop of manage_keys.py:217-251 over the chosen indices. */
    method CaptureLoop(systemKeys: seq<string>, indices: seq<int>, answers: seq<CaptureAnswer>)
      returns (added: seq<string>)
      modifies this`keys, this`aliases
      ensures Inv() == CaptureFrom(old(Inv()), systemKeys, indices, answers, 0).inv
      ensures added == CaptureFrom(old(Inv()), systemKeys, indices, answers, 0).added
    {
      ghost var start := Inv();
      added := [];
      var j := 0;
      while j < |indices|
        invariant 0 <= j <= |indices|
        invariant CaptureFrom(start, systemKeys, indices, answers, 0).inv ==
                  CaptureFrom(Inv(), systemKeys, indices, answers, j).inv
        invariant CaptureFrom(start, systemKeys, indices, answers, 0).added ==
                  added + CaptureFrom(Inv(), systemKeys, indices, answers, j).added
      {
        var idx := indices[j];
        ghost var before := Inv();
        if 0 <= idx < |systemKeys| {
          var accepted := CaptureOne(systemKeys[idx], AnswerAt(answers, j));
          if accepted {
            CaptureStep(before, Inv(), systemKeys, indices, answers, j, added);
            added := added + [KeyName(systemKeys[idx])];
          } else {
            CaptureSkip(before, systemKeys, indices, answers, j);
          }
        } else {
          CaptureSkip(before, systemKeys, indices, answers, j);
        }
        j := j + 1;
      }
      assert added + [] == added;
    }

    /** One pass of the capture loop (manage_keys.py:220-251): an identity already held
        is replaced only on a "y" answer, and the old line and its metadata go first. */
    method CaptureOne(key: string, ans: CaptureAnswer) returns (accepted: bool)
      modifies this`keys, this`aliases
      ensures accepted <==> CaptureKey(old(Inv()), key, ans).Some?
      ensures accepted ==> Inv() == CaptureKey(old(Inv()), key, ans).value
      ensures !accepted ==> keys == old(keys) && aliases == old(aliases)
    {
      var existing := FindExistingKey(key);
      if existing.Some? && !Accepts(ans.overwrite) {
        return false;
      }
      if existing.Some? {
        var e := existing.value;
        aliases := aliases - {KeyName(keys[e])};
        keys := RemoveAt(keys, e);
      }
      aliases := aliases[KeyName(key) := NewRecord(ans.alias, ans.expiry, ans.clock)];
      keys := keys + [key];
      accepted := true;
    }

    /** A pass of the capture loop that adds nothing. */
    lemma CaptureSkip(inv: Inventory, systemKeys: seq<string>, indices: seq<int>, answers: seq<CaptureAnswer>, j: nat)
      requires j < |indices|
      requires 0 <= indices[j] < |systemKeys| ==> CaptureKey(inv, systemKeys[indices[j]], AnswerAt(answers, j)).None?
      ensures CaptureFrom(inv, systemKeys, indices, answers, j) == CaptureFrom(inv, systemKeys, indices, answers, j + 1)
    {
    }

    /** One accepted pass of the capture loop, as the loop invariant needs it. */
    lemma CaptureStep(before: Inventory, after: Inventory, systemKeys: seq<string>, indices: seq<int>,
                      answers: seq<CaptureAnswer>, j: nat, added: seq<string>)
      requires j < |indices| && 0 <= indices[j] < |systemKeys|
      requires CaptureKey(before, systemKeys[indices[j]], AnswerAt(answers, j)) == Some(after)
      ensures var rest := CaptureFrom(after, systemKeys, indices, answers, j + 1);
              var here := CaptureFrom(before, systemKeys, indices, answers, j);
              here.inv == rest.inv && added + here.added == (added + [KeyName(systemKeys[indices[j]])]) + rest.added
    {
    }

    /** `deploy_keys` (manage_keys.py:258-353) with the target's content as a
        parameter: what it reports and the text it leaves in the target. */
    method DeployKeys(selection: string, target: Option<string>) returns (outcome: DeployOutcome)
      ensures outcome == DeploySpec(keys, aliases, selection, target)
    {
      if keys == [] {
        return NoKeys;
      }
      var raises := ListingRaises();
      if raises {
        return ListingCrashed;
      }
      var sel := ParseSelection(selection);
      var selected: seq<string>;
      match sel {
        case Blank => return NoSelection;
        case Invalid => return InvalidSelection;
        case All => selected := keys;
        case Numbers(indices) => selected := PickKeys(indices);
      }
      var toAdd := FilterNew(selected, TargetLines(target));
      if toAdd == [] {
        return AlreadyDeployed;
      }
      var written := AppendKeys(target.GetOr(""), toAdd);
      var verdict := CheckDeployed(toAdd, LoadLines(written));
      outcome := Deployed(written, toAdd, verdict.succeeded, verdict.failed);
    }

    /** `[self.keys[i] for i in indices if 0 <= i < len(self.keys)]` (manage_keys.py:289). */
    method PickKeys(indices: seq<int>) returns (picked: seq<string>)
      ensures picked == Picks(keys, indices)
    {
      picked := [];
      var i := 0;
      while i < |indices|
        invariant 0 <= i <= |indices|
        invariant Picks(keys, indices) == picked + Picks(keys, indices[i..])
      {
        PicksStep(keys, indices, i, picked);
        if 0 <= indices[i] < |keys| {
          picked := picked + [keys[indices[i]]];
        }
        i := i + 1;
      }
      assert indices[i..] == [];
    }

    /** `delete_keys` (manage_keys.py:380-446) with the typed selection and the typed
        confirmation. */
    method DeleteKeys(selection: string, confirm: string) returns (outcome: DeleteOutcome)
      modifies this`keys, this`aliases, this`keysFile, this`sidecar, this`backups
      ensures PlanDeletion(old(keys), old(aliases), selection, confirm).DeleteHalt? ==>
                outcome == PlanDeletion(old(keys), old(aliases), selection, confirm).outcome &&
                keys == old(keys) && aliases == old(aliases) &&
                keysFile == old(keysFile) && sidecar == old(sidecar) && backups == old(backups)
      ensures PlanDeletion(old(keys), old(aliases), selection, confirm).DeleteOver? ==>
                var run := DeleteFrom(Inventory(old(keys), old(aliases)),
                                      PlanDeletion(old(keys), old(aliases), selection, confirm).toDelete, 0);
                Inv() == run.inv && outcome.Deleted? && outcome.removed == run.removed
      ensures outcome.Deleted? && outcome.removed == [] ==>
                !outcome.saved && keysFile == old(keysFile) && sidecar == old(sidecar) && backups == old(backups)
      ensures outcome.Deleted? && !outcome.saved ==>
                keysFile == old(keysFile) && sidecar == old(sidecar) && backups == old(backups)
      ensures outcome.Deleted? && outcome.removed != [] ==>
                (outcome.saved <==> old(keysFile).Some?) &&
                (outcome.saved ==> keysFile == Some(Serialize(keys)) && sidecar == Stored(aliases) &&
                                   backups == old(backups) + [old(keysFile).value])
    {
      var plan := ChooseDeletion(selection, confirm);
      if plan.DeleteHalt? {
        return plan.outcome;
      }
      var removed := DeleteLoop(plan.toDelete);
      var saved := false;
      if removed != [] {
        saved := SaveKeys();
      }
      outcome := Deleted(removed, saved);
    }

    /** The prompts of manage_keys.py:387-430 before anything is deleted: the listing,
        the selection, the descending sort of typed numbers and the confirmation. */
    method ChooseDeletion(selection: string, confirm: string) returns (plan: DeletePlan)
      ensures plan == PlanDeletion(keys, aliases, selection, confirm)
    {
      if keys == [] {
        return DeleteHalt(NoKeysToDelete);
      }
      var raises := ListingRaises();
      if raises {
        return DeleteHalt(DeleteListingCrashed);
      }
      match ParseSelection(selection) {
        case Blank => return DeleteHalt(NothingChosen);
        case Invalid => return DeleteHalt(BadChoice);
        case All =>
          if Lower(confirm) != "yes" {
            return DeleteHalt(Cancelled);
          }
          plan := DeleteOver(Range(|keys|));
        case Numbers(indices) =>
          var sorted := SortDesc(indices);
          if Lower(confirm) != "yes" {
            return DeleteHalt(Cancelled);
          }
          plan := DeleteOver(sorted);
      }
    }

    /** The loop of manage_keys.py:432-438 over the indices to delete. */
    method DeleteLoop(toDelete: seq<int>) returns (removed: seq<string>)
      modifies this`keys, this`aliases
      ensures Inv() == DeleteFrom(old(Inv()), toDelete, 0).inv
      ensures removed == DeleteFrom(old(Inv()), toDelete, 0).removed
    {
      ghost var start := Inv();
      removed := [];
      var j := 0;
      while j < |toDelete|
        invariant 0 <= j <= |toDelete|
        invariant DeleteFrom(start, toDelete, 0).inv == DeleteFrom(Inv(), toDelete, j).inv
        invariant DeleteFrom(start, toDelete, 0).removed == removed + DeleteFrom(Inv(), toDelete, j).removed
      {
        ghost var before := Inv();
        var gone := DeleteOne(toDelete[j]);
        DeletePass(before, Inv(), toDelete, j, removed, gone);
        removed := removed + gone;
        j := j + 1;
      }
      assert removed + [] == removed;
    }

    /** One pass of the deletion loop (manage_keys.py:433-438): an index in range drops
        that line and the metadata under its name; any other index is skipped. */
    method DeleteOne(idx: int) returns (gone: seq<string>)
      modifies this`keys, this`aliases
      ensures DeleteAt(old(Inv()), idx) == DeleteRun(Inv(), gone)
    {
      if 0 <= idx < |keys| {
        var key := keys[idx];
        aliases := aliases - {KeyName(key)};
        keys := RemoveAt(keys, idx);
        gone := [key];
      } else {
        gone := [];
      }
    }

    /** One pass of the deletion loop, as the loop invariant needs it. */
    lemma DeletePass(before: Inventory, after: Inventory, toDelete: seq<int>, j: nat,
                     removed: seq<string>, gone: seq<string>)
      requires j < |toDelete| && DeleteAt(before, toDelete[j]) == DeleteRun(after, gone)
      ensures DeleteFrom(before, toDelete, j).inv == DeleteFrom(after, toDelete, j + 1).inv
      ensures removed + DeleteFrom(before, toDelete, j).removed ==
              (removed + gone) + DeleteFrom(after, toDelete, j + 1).removed
    {
    }
  }
}

=== FILE: numerals.dfy ===
/**
 * Python's `int(text)` as the key manager uses it to read menu numbers, and the
 * decimal numerals it prints (`str(n)`) as the partner that parsing inverts.
 */
module Numerals {
  import opened Wrappers
  import opened Text

  predicate IsDigit(c: char) {
    '0' <= c <= '9'
  }

  predicate AllDigits(s: string) {
    forall i :: 0 <= i < |s| ==> IsDigit(s[i])
  }

  function DigitValue(c: char): nat
    requires IsDigit(c)
  {
    c as int - '0' as int
  }

  function DigitChar(d: nat): (c: char)
    requires d < 10
    ensures IsDigit(c) && DigitValue(c) == d
  {
    ('0' as int + d) as char
  }

  /** The value of a decimal numeral, most significant digit first. */
  function DigitsValue(s: string): nat
    requires AllDigits(s)
    decreases |s|
  {
    if s == [] then 0 else DigitsValue(s[..|s| - 1]) * 10 + DigitValue(s[|s| - 1])
  }

  /** Python's `str(n)` for a natural number: its shortest decimal numeral. */
  function NatToString(n: nat): (s: string)
    ensures s != [] && AllDigits(s)
    decreases n
  {
    if n < 10 then [DigitChar(n)] else NatToString(n / 10) + [DigitChar(n % 10)]
  }

  /** Python's `str(i)` for any integer. */
  function IntToString(i: int): string {
    if i < 0 then "-" + NatToString(-i) else NatToString(i)
  }

  /** Python's `int(s)` for decimal text: optional surrounding whitespace, an optional
      sign, then one or more digits; `None` stands for the `ValueError` anything else raises. */
  function ParseInt(s: string): (r: Option<int>)
    ensures r.Some? ==> Strip(s) != [] && IsDigit(Strip(s)[|Strip(s)| - 1])
    ensures r.Some? && r.value < 0 ==> Strip(s)[0] == '-'
    ensures Strip(s) != [] && AllDigits(Strip(s)) ==> r == Some(DigitsValue(Strip(s)))
  {
    var t := Strip(s);
    if t != [] && (t[0] == '+' || t[0] == '-') then
      var digits := t[1..];
      if digits != [] && AllDigits(digits) then
        var v: int := DigitsValue(digits);
        Some(if t[0] == '-' then -v else v)
      else None
    else if t != [] && AllDigits(t) then Some(DigitsValue(t))
    else None
  }

  lemma {:induction false} NatToStringValue(n: nat)
    ensures DigitsValue(NatToString(n)) == n
    decreases n
  {
    if n >= 10 {
      var s := NatToString(n);
      assert s[..|s| - 1] == NatToString(n / 10);
      NatToStringValue(n / 10);
    }
  }

  /** `int(str(i)) == i` for every integer. */
  lemma ParseIntRoundTrip(i: int)
    ensures ParseInt(IntToString(i)) == Some(i)
  {
    var s := IntToString(i);
    var digits := NatToString(if i < 0 then -i else i);
    NatToStringValue(if i < 0 then -i else i);
    assert !IsSpace(digits[|digits| - 1]);
    if i < 0 {
      assert s[1..] == digits;
      assert Trimmed(s);
    } else {
      assert Trimmed(s);
    }
  }
}

=== FILE: repourl.dfy ===
/**
 * How `check_repo_visibility` (manage_keys.py:573-607) turns the `origin` remote into
 * the GitHub API address it probes: an SSH or HTTPS GitHub remote is cut down to its
 * `owner/repo` path, every ".git" in that path is deleted, and the path is appended to
 * the API base. The repository counts as public only when the anonymous probe answers
 * HTTP 200. Running git and curl is left out: their outputs are parameters.
 */
module RepoUrl {
  import opened Wrappers
  import opened Text

  const SshPrefix: string := "git@github.com:"
  const HttpsPrefix: string := "https://github.com/"
  const ApiPrefix: string := "https://api.github.com/repos/"
  const GitSuffix: string := ".git"

  /** `url.split(prefix)[1]` for a `url` that starts with `prefix`: the text after the
      prefix, up to the prefix's next occurrence. */
  function AfterPrefix(url: string, prefix: string): (r: string)
    requires prefix != [] && StartsWith(url, prefix)
    ensures StartsWith(url[|prefix|..], r)
  {
    UpTo(url[|prefix|..], prefix)
  }

  /** The GitHub prefix a stripped remote starts with, SSH first; none for other hosts. */
  function GitHubPrefix(url: string): (p: Option<string>)
    ensures p.Some? ==> StartsWith(url, p.value) && (p.value == SshPrefix || p.value == HttpsPrefix)
    ensures p.None? <==> !StartsWith(url, SshPrefix) && !StartsWith(url, HttpsPrefix)
  {
    if StartsWith(url, SshPrefix) then Some(SshPrefix)
    else if StartsWith(url, HttpsPrefix) then Some(HttpsPrefix)
    else None
  }

  /** The API address probed for the remote git reports, as written; `None` for a
      remote that is not on GitHub (the check answers "private" without probing). */
  function ApiUrl(remote: string): (r: Option<string>)
    ensures r.Some? <==> GitHubPrefix(Strip(remote)).Some?
    ensures r.Some? ==> StartsWith(r.value, ApiPrefix)
  {
    var url := Strip(remote);
    match GitHubPrefix(url)
    case None => None
    case Some(prefix) => Some(ApiPrefix + ReplaceAll(AfterPrefix(url, prefix), GitSuffix, ""))
  }

  /** The verdict: the git command failed (`None`), the host is not GitHub, or the probe
      did not answer 200 all mean "private". */
  function IsPublic(remote: Option<string>, probeStatus: string): (public: bool)
    ensures public <==> remote.Some? && ApiUrl(remote.value).Some? && Strip(probeStatus) == "200"
  {
    match remote
    case None => false
    case Some(r) => ApiUrl(r).Some? && Strip(probeStatus) == "200"
  }

  /** A prefix the way both GitHub prefixes are: it starts and ends with a visible
      character and holds a colon. */
  predicate ColonPrefix(prefix: string) {
    prefix != [] && !IsSpace(prefix[0]) && !IsSpace(prefix[|prefix| - 1]) && ':' in prefix
  }

  /** `<prefix><rest>` with a colon-free rest that does not end in whitespace is already
      stripped, and its text after the prefix is the rest. */
  lemma SplitAfterPrefix(prefix: string, rest: string)
    requires ColonPrefix(prefix)
    requires ':' !in rest && (rest == [] || !IsSpace(rest[|rest| - 1]))
    ensures Strip(prefix + rest) == prefix + rest
    ensures StartsWith(prefix + rest, prefix) && AfterPrefix(prefix + rest, prefix) == rest
  {
    var url := prefix + rest;
    assert url[0] == prefix[0];
    assert url[|url| - 1] == if rest == [] then prefix[|prefix| - 1] else rest[|rest| - 1];
    assert url[..|prefix|] == prefix;
    assert url[|prefix|..] == rest;
    MissingCharNotContained(rest, prefix, ':');
    UpToAbsent(rest, prefix);
  }

  /** The HTTPS prefix is not taken for the SSH one. */
  lemma HttpsIsNotSsh(rest: string)
    ensures !StartsWith(HttpsPrefix + rest, SshPrefix)
  {
    var url := HttpsPrefix + rest;
    assert url[..|SshPrefix|][0] == 'h' != SshPrefix[0];
  }

  /** A GitHub remote `<prefix><rest>` with a colon-free rest that does not end in
      whitespace: the prefix is recognised and the rest is the path. */
  lemma GitHubRemote(prefix: string, rest: string)
    requires prefix == SshPrefix || prefix == HttpsPrefix
    requires ':' !in rest && (rest == [] || !IsSpace(rest[|rest| - 1]))
    ensures Strip(prefix + rest) == prefix + rest
    ensures GitHubPrefix(prefix + rest) == Some(prefix)
    ensures AfterPrefix(prefix + rest, prefix) == rest
  {
    assert SshPrefix[14] == ':' && HttpsPrefix[5] == ':';
    SplitAfterPrefix(prefix, rest);
    if prefix == HttpsPrefix {
      HttpsIsNotSsh(rest);
    }
  }

  lemma ApiUrlOf(prefix: string, rest: string)
    requires prefix == SshPrefix || prefix == HttpsPrefix
    requires ':' !in rest && (rest == [] || !IsSpace(rest[|rest| - 1]))
    ensures ApiUrl(prefix + rest) == Some(ApiPrefix + ReplaceAll(rest, GitSuffix, ""))
    ensures ApiUrlIntended(prefix + rest) == Some(ApiPrefix + TrimGitSuffix(rest))
  {
    GitHubRemote(prefix, rest);
  }

  /** `replace` steps over a first character that cannot start ".git". */
  lemma ReplaceSkipsChar(s: string)
    requires s != [] && s[0] != '.'
    ensures ReplaceAll(s, GitSuffix, "") == [s[0]] + ReplaceAll(s[1..], GitSuffix, "")
  {
    if |s| >= |GitSuffix| {
      assert s[..|GitSuffix|][0] != GitSuffix[0];
    }
  }

  /** `replace` passes over text without dots. */
  lemma {:induction false} ReplaceSkipsDotless(x: string, y: string)
    requires '.' !in x
    ensures ReplaceAll(x + y, GitSuffix, "") == x + ReplaceAll(y, GitSuffix, "")
    decreases |x|
  {
    if x == [] {
      assert x + y == y;
    } else {
      var s := x + y;
      assert s[0] == x[0] && s[1..] == x[1..] + y;
      ReplaceSkipsChar(s);
      ReplaceSkipsDotless(x[1..], y);
      assert [x[0]] + (x[1..] + ReplaceAll(y, GitSuffix, "")) == x + ReplaceAll(y, GitSuffix, "");
    }
  }

  /** `replace` deletes an occurrence at the front. */
  lemma ReplaceDropsFront(y: string)
    ensures ReplaceAll(GitSuffix + y, GitSuffix, "") == ReplaceAll(y, GitSuffix, "")
  {
    assert (GitSuffix + y)[..|GitSuffix|] == GitSuffix;
    assert (GitSuffix + y)[|GitSuffix|..] == y;
  }

  /** Deleting ".git" from a path without dots followed by ".git" leaves the path. */
  lemma ReplaceGitSuffix(p: string)
    requires '.' !in p
    ensures ReplaceAll(p + GitSuffix, GitSuffix, "") == p
  {
    ReplaceSkipsDotless(p, GitSuffix);
    ReplaceDropsFront("");
    assert GitSuffix + "" == GitSuffix;
  }

  /** A remote `<prefix><path>.git` whose path has neither dots nor colons is probed at
      the API address of that path. */
  lemma PlainPathProbed(prefix: string, path: string)
    requires prefix == SshPrefix || prefix == HttpsPrefix
    requires '.' !in path && ':' !in path
    ensures ApiUrl(prefix + (path + GitSuffix)) == Some(ApiPrefix + path)
  {
    assert ':' !in path + GitSuffix;
    ApiUrlOf(prefix, path + GitSuffix);
    ReplaceGitSuffix(path);
  }

  /** Every ".git" in a path goes, not only the suffix. */
  lemma ReplaceInnerGit(a: string, b: string)
    requires '.' !in a && '.' !in b
    ensures ReplaceAll(a + GitSuffix + b + GitSuffix, GitSuffix, "") == a + b
  {
    assert a + GitSuffix + b + GitSuffix == a + (GitSuffix + (b + GitSuffix));
    ReplaceSkipsDotless(a, GitSuffix + (b + GitSuffix));
    ReplaceDropsFront(b + GitSuffix);
    ReplaceGitSuffix(b);
  }

  /** As written, the remote of a repository named `<a>.git<b>` is probed as `<a><b>`. */
  lemma InnerGitDeleted(prefix: string, a: string, b: string)
    requires prefix == SshPrefix || prefix == HttpsPrefix
    requires '.' !in a && ':' !in a && '.' !in b && ':' !in b
    ensures ApiUrl(prefix + (a + GitSuffix + b + GitSuffix)) == Some(ApiPrefix + (a + b))
    ensures ApiUrl(prefix + (a + GitSuffix + b + GitSuffix)) != Some(ApiPrefix + (a + GitSuffix + b))
  {
    InnerGitShape(a, b);
    ApiUrlOf(prefix, a + GitSuffix + b + GitSuffix);
    ReplaceInnerGit(a, b);
  }

  /** A path ends with a suffix. */
  predicate EndsWith(s: string, suffix: string) {
    |suffix| <= |s| && s[|s| - |suffix|..] == suffix
  }

  /** The path with one trailing ".git" removed: `removesuffix('.git')`. */
  function TrimGitSuffix(path: string): (r: string)
    ensures EndsWith(path, GitSuffix) ==> r + GitSuffix == path
    ensures !EndsWith(path, GitSuffix) ==> r == path
  {
    if EndsWith(path, GitSuffix) then path[..|path| - |GitSuffix|] else path
  }

  /** The API address as intended: only the trailing ".git" is dropped. */
  function ApiUrlIntended(remote: string): (r: Option<string>)
    ensures r.Some? <==> GitHubPrefix(Strip(remote)).Some?
    ensures r.Some? ==> StartsWith(r.value, ApiPrefix)
  {
    var url := Strip(remote);
    match GitHubPrefix(url)
    case None => None
    case Some(prefix) => Some(ApiPrefix + TrimGitSuffix(AfterPrefix(url, prefix)))
  }

  /** Intended behaviour: any colon-free path, dotted or not, is probed under its own
      name, with or without the ".git" suffix on the remote. */
  lemma IntendedKeepsPath(prefix: string, path: string)
    requires prefix == SshPrefix || prefix == HttpsPrefix
    requires ':' !in path && (path == [] || !IsSpace(path[|path| - 1])) && !EndsWith(path, GitSuffix)
    ensures ApiUrlIntended(prefix + (path + GitSuffix)) == Some(ApiPrefix + path)
    ensures ApiUrlIntended(prefix + path) == Some(ApiPrefix + path)
  {
    assert ':' !in path + GitSuffix;
    ApiUrlOf(prefix, path + GitSuffix);
    ApiUrlOf(prefix, path);
    assert (path + GitSuffix)[..|path|] == path;
  }

  /** A path `<a>.git<b>` with a dot-free, non-empty `b` does not end in ".git": the
      character four from its end is not a dot. */
  lemma InnerGitNotSuffix(a: string, b: string)
    requires '.' !in b && b != []
    ensures !EndsWith(a + GitSuffix + b, GitSuffix)
  {
    var path := a + GitSuffix + b;
    var i := |path| - |GitSuffix|;
    assert path[i] != '.' by {
      if |b| >= |GitSuffix| {
        assert path[i] == b[|b| - |GitSuffix|];
      } else {
        assert path[i] == GitSuffix[|b|];
      }
    }
    assert path[i..][0] != GitSuffix[0];
  }

  /** The shape of `<a>.git<b>.git`: it ends in 't', and it has a colon only where
      `a` or `b` has one. */
  lemma InnerGitShape(a: string, b: string)
    requires ':' !in a && ':' !in b
    ensures var rest := a + GitSuffix + b + GitSuffix;
            rest[|rest| - 1] == 't' && ':' !in rest && ':' !in a + GitSuffix + b
  {
  }

  /** The intended address of the same remote keeps the name whole. */
  lemma IntendedKeepsInnerGit(prefix: string, a: string, b: string)
    requires prefix == SshPrefix || prefix == HttpsPrefix
    requires '.' !in a && ':' !in a && '.' !in b && ':' !in b && b != [] && !IsSpace(b[|b| - 1])
    ensures ApiUrlIntended(prefix + (a + GitSuffix + b + GitSuffix)) == Some(ApiPrefix + (a + GitSuffix + b))
  {
    var path := a + GitSuffix + b;
    assert path[|path| - 1] == b[|b| - 1];
    InnerGitShape(a, b);
    InnerGitNotSuffix(a, b);
    IntendedKeepsPath(prefix, path);
  }
}

=== FILE: search.dfy ===
/**
 * `list_keys` (manage_keys.py:95-121): every key is visited in order and numbered by
 * its position in the whole inventory; a non-empty search term hides the keys whose
 * name and alias both lack it, compared case-insensitively (manage_keys.py:106).
 * Reading the key type (`key.split()[0]`, manage_keys.py:109) and the metadata
 * (manage_keys.py:110) of a shown key can raise, which ends the listing.
 */
module Search {
  import opened Wrappers
  import opened Text
  import opened KeyLine
  import opened KeyStore

  /** The filter of manage_keys.py:106, read positively: the key stays when the term is
      empty or occurs, ignoring ASCII case, in its name or its alias. */
  predicate SearchKeeps(name: string, alias: string, search: string)
    ensures SearchKeeps(name, alias, search) <==>
              search == "" ||
              (exists i :: OccursAt(Lower(name), Lower(search), i)) ||
              (exists i :: OccursAt(Lower(alias), Lower(search), i))
  {
    ContainsAt(Lower(name), Lower(search));
    ContainsAt(Lower(alias), Lower(search));
    search == "" || Contains(Lower(name), Lower(search)) || Contains(Lower(alias), Lower(search))
  }

  datatype Visit = Show | Hide | Crash

  /** One pass of the listing loop over `key`. The alias is read only when the name
      alone does not decide (Python's `and` short-circuits), but a shown key reads its
      metadata anyway, so a bare alias raises either way. */
  function VisitKey(key: string, aliases: Aliases, search: string): (v: Visit)
    ensures v == Crash <==>
              ShownAlias(aliases, KeyName(key)).None? ||
              (Words(key) == [] && SearchKeeps(KeyName(key), ShownAlias(aliases, KeyName(key)).value, search))
  {
    var name := KeyName(key);
    if search != "" && !Contains(Lower(name), Lower(search)) && ShownAlias(aliases, name).None? then Crash
    else if search != "" && !Contains(Lower(name), Lower(search))
            && !Contains(Lower(ShownAlias(aliases, name).value), Lower(search)) then Hide
    else if Words(key) == [] || ShownAlias(aliases, name).None? then Crash
    else Show
  }

  /** A key is hidden exactly when its metadata can be read and the filter rejects it,
      and shown exactly when, besides, the filter keeps it and it has a type field. */
  lemma VisitKeyMeaning(key: string, aliases: Aliases, search: string)
    ensures var v := VisitKey(key, aliases, search);
            var alias := ShownAlias(aliases, KeyName(key));
            (v == Hide <==> alias.Some? && !SearchKeeps(KeyName(key), alias.value, search)) &&
            (v == Show <==> alias.Some? && Words(key) != [] && SearchKeeps(KeyName(key), alias.value, search))
  {
  }

  /** What a listing prints: the 1-based numbers of the keys shown, and whether it
      stopped on an exception. */
  datatype Listing = Listing(shown: seq<nat>, crashed: bool)

  /** The verdict of each visit, key by key. */
  function Visits(keys: seq<string>, aliases: Aliases, search: string): (vs: seq<Visit>)
    ensures |vs| == |keys|
    decreases |keys|
  {
    if keys == [] then [] else [VisitKey(keys[0], aliases, search)] + Visits(keys[1..], aliases, search)
  }

  lemma {:induction false} VisitsAt(keys: seq<string>, aliases: Aliases, search: string, i: nat)
    requires i < |keys|
    ensures Visits(keys, aliases, search)[i] == VisitKey(keys[i], aliases, search)
    decreases i
  {
    if i > 0 {
      VisitsAt(keys[1..], aliases, search, i - 1);
    }
  }

  /** The listing from position `from` on, given the verdict of every visit: numbers
      are positions in the whole list, and the first crash ends it. */
  function ListFrom(visits: seq<Visit>, from: nat): Listing
    requires from <= |visits|
    decreases |visits| - from
  {
    if from == |visits| then Listing([], false)
    else
      if visits[from] == Crash then Listing([], true)
      else if visits[from] == Hide then ListFrom(visits, from + 1)
      else
        var rest := ListFrom(visits, from + 1);
        Listing([from + 1] + rest.shown, rest.crashed)
  }

  /** The listing numbers shown keys by their position, in increasing order; when it
      completes it shows exactly the keys whose visit shows them; and it stops exactly
      when some visit raises. */
  lemma {:induction false} ListFromProperties(visits: seq<Visit>, from: nat)
    requires from <= |visits|
    ensures var r := ListFrom(visits, from);
            (forall i :: 0 <= i < |r.shown| ==> from < r.shown[i] <= |visits|) &&
            (forall i, j :: 0 <= i < j < |r.shown| ==> r.shown[i] < r.shown[j]) &&
            (!r.crashed ==> forall p :: from <= p < |visits| ==> (p + 1 in r.shown <==> visits[p] == Show)) &&
            (r.crashed <==> exists p :: from <= p < |visits| && visits[p] == Crash)
    decreases |visits| - from
  {
    if from < |visits| {
      ListFromProperties(visits, from + 1);
      var rest := ListFrom(visits, from + 1);
      if visits[from] == Show {
        var r := ListFrom(visits, from);
        assert r.shown == [from + 1] + rest.shown;
        forall i, j | 0 <= i < j < |r.shown| ensures r.shown[i] < r.shown[j] {
          if i > 0 {
            assert r.shown[i] == rest.shown[i - 1];
          }
          assert r.shown[j] == rest.shown[j - 1];
        }
        if !r.crashed {
          forall p | from <= p < |visits| ensures (p + 1 in r.shown <==> visits[p] == Show) {
            if p > from {
              assert p + 1 in r.shown <==> p + 1 in rest.shown;
            }
          }
        }
      } else if visits[from] == Hide {
        var r := ListFrom(visits, from);
        if !r.crashed {
          forall p | from <= p < |visits| ensures (p + 1 in r.shown <==> visits[p] == Show) {
            if p == from {
              assert from + 1 !in rest.shown;
            }
          }
        }
      }
    }
  }

  /** One more visit, for a loop that builds the listing front to back. */
  lemma ListFromStep(visits: seq<Visit>, i: nat, shown: seq<nat>)
    requires i < |visits|
    ensures visits[i] == Crash ==> ListFrom(visits, i) == Listing([], true)
    ensures visits[i] == Hide ==> ListFrom(visits, i) == ListFrom(visits, i + 1)
    ensures visits[i] == Show ==> shown + ListFrom(visits, i).shown == (shown + [i + 1]) + ListFrom(visits, i + 1).shown &&
                                  ListFrom(visits, i).crashed == ListFrom(visits, i + 1).crashed
  {
  }

  /** `list_keys(search)`: what it prints for the inventory. */
  function ListKeysSpec(keys: seq<string>, aliases: Aliases, search: string): (r: Listing)
    ensures forall i :: 0 <= i < |r.shown| ==> 1 <= r.shown[i] <= |keys|
    ensures r.crashed <==> exists p :: 0 <= p < |keys| && VisitKey(keys[p], aliases, search) == Crash
  {
    var visits := Visits(keys, aliases, search);
    ListFromProperties(visits, 0);
    assert forall p :: 0 <= p < |keys| ==> visits[p] == VisitKey(keys[p], aliases, search) by {
      forall p | 0 <= p < |keys| ensures visits[p] == VisitKey(keys[p], aliases, search) {
        VisitsAt(keys, aliases, search, p);
      }
    }
    ListFrom(visits, 0)
  }

  /** The numbers `from + 1 .. |keys|`. */
  function NumbersFrom(from: nat, last: nat): (r: seq<nat>)
    requires from <= last
    ensures |r| == last - from
    ensures forall i :: 0 <= i < |r| ==> r[i] == from + i + 1
    decreases last - from
  {
    if from == last then [] else [from + 1] + NumbersFrom(from + 1, last)
  }

  /** When every key is shown, the listing numbers them all. */
  lemma {:induction false} AllShownListsAll(visits: seq<Visit>, from: nat)
    requires from <= |visits|
    requires forall p :: 0 <= p < |visits| ==> visits[p] == Show
    ensures ListFrom(visits, from) == Listing(NumbersFrom(from, |visits|), false)
    decreases |visits| - from
  {
    if from < |visits| {
      AllShownListsAll(visits, from + 1);
    }
  }

  /** With an empty search term, and no key that lacks fields or carries a bare alias,
      every key is listed under its own position. */
  lemma EmptySearchListsAll(keys: seq<string>, aliases: Aliases)
    requires forall p :: 0 <= p < |keys| ==> Words(keys[p]) != []
    requires !ListingCrashes(keys, aliases)
    ensures ListKeysSpec(keys, aliases, "") == Listing(NumbersFrom(0, |keys|), false)
  {
    var visits := Visits(keys, aliases, "");
    forall p | 0 <= p < |keys| ensures visits[p] == Show {
      VisitsAt(keys, aliases, "", p);
      assert ShownAlias(aliases, KeyName(keys[p])).Some?;
      VisitKeyMeaning(keys[p], aliases, "");
    }
    AllShownListsAll(visits, 0);
  }

  /** Only the lower-cased term matters: the search is case-insensitive. */
  lemma SearchIgnoresCase(name: string, alias: string, s1: string, s2: string)
    requires Lower(s1) == Lower(s2)
    ensures SearchKeeps(name, alias, s1) == SearchKeeps(name, alias, s2)
  {
    assert |s1| == |Lower(s1)| == |s2|;
  }

  /** A term that occurs anywhere in the name, in any case, keeps the key, whatever
      the alias: the name is lower-cased text `p`, then the lower-cased term, then `q`. */
  lemma NameMatchKeeps(name: string, alias: string, search: string, p: string, q: string)
    requires Lower(name) == p + Lower(search) + q
    ensures SearchKeeps(name, alias, search)
  {
    ContainsAt(Lower(name), Lower(search));
    assert OccursAt(Lower(name), Lower(search), |p|);
  }
}

=== FILE: selection.dfy ===
/**
 * The menu selections typed at the capture, deploy and delete prompts
 * (manage_keys.py:203-215, 270-292, 392-429): blank input returns to the menu,
 * "all" in any ASCII case selects everything, otherwise a comma-separated list of
 * 1-based numbers, each turned into a 0-based index; one piece that is not an
 * integer makes the whole selection invalid. Range checks are left to each caller.
 */
module Selection {
  import opened Wrappers
  import opened Text
  import opened Numerals

  datatype Selection = Blank | All | Numbers(indices: seq<int>) | Invalid

  /** `[int(i.strip()) - 1 for i in pieces]`: every piece parsed, or the `ValueError`. */
  function ParseIndices(pieces: seq<string>): (r: Option<seq<int>>)
    ensures r.Some? <==> forall i :: 0 <= i < |pieces| ==> ParseInt(pieces[i]).Some?
    ensures r.Some? ==> |r.value| == |pieces| &&
                        forall i :: 0 <= i < |pieces| ==> ParseInt(pieces[i]) == Some(r.value[i] + 1)
    decreases |pieces|
  {
    if pieces == [] then Some([])
    else
      var stripped := Strip(pieces[0]);
      assert ParseInt(stripped) == ParseInt(pieces[0]);
      match ParseInt(stripped)
      case None => None
      case Some(n) =>
        match ParseIndices(pieces[1..])
        case None => None
        case Some(rest) => Some([n - 1] + rest)
  }

  /** What a selection prompt makes of the typed line. */
  function ParseSelection(input: string): (s: Selection)
    ensures s.Blank? <==> Strip(input) == ""
    ensures s.Numbers? ==>
              var pieces := SplitOn(Strip(input), ',');
              |s.indices| == |pieces| && forall i :: 0 <= i < |pieces| ==> ParseInt(pieces[i]) == Some(s.indices[i] + 1)
  {
    var t := Strip(input);
    if t == "" then Blank
    else if Lower(t) == "all" then All
    else
      var pieces := SplitOn(t, ',');
      var r := ParseIndices(pieces);
      if r.Some? then Numbers(r.value) else Invalid
  }

  /** "all", in any case and with any surrounding whitespace, selects everything. */
  lemma ParseAll(input: string)
    requires Lower(Strip(input)) == "all"
    ensures ParseSelection(input) == All
  {
    assert |Lower(Strip(input))| == |Strip(input)|;
  }

  /** `range(n)`: the indices `0 .. n-1`, ascending. */
  function Range(n: nat): (r: seq<int>)
    ensures |r| == n && forall i :: 0 <= i < n ==> r[i] == i
  {
    seq(n, i => i)
  }

  /** The line a user types to choose the 0-based `positions`: their 1-based numbers,
      comma-separated. */
  function FormatSelection(positions: seq<nat>): string {
    Join(Numerals1Based(positions), ',')
  }

  function Numerals1Based(positions: seq<nat>): seq<string> {
    seq(|positions|, i requires 0 <= i < |positions| => NatToString(positions[i] + 1))
  }

  predicate NumeralChar(c: char) {
    IsDigit(c) || c == ','
  }

  /** A comma-joined list of numerals holds only digits and commas. */
  lemma {:induction false} JoinNumerals(pieces: seq<string>)
    requires forall i :: 0 <= i < |pieces| ==> AllDigits(pieces[i])
    ensures forall k :: 0 <= k < |Join(pieces, ',')| ==> NumeralChar(Join(pieces, ',')[k])
    decreases |pieces|
  {
    if |pieces| > 1 {
      JoinNumerals(pieces[1..]);
      var line := Join(pieces, ',');
      var rest := Join(pieces[1..], ',');
      assert line == pieces[0] + [','] + rest;
      forall k | 0 <= k < |line| ensures NumeralChar(line[k]) {
        if k < |pieces[0]| {
          assert line[k] == pieces[0][k];
        } else if k > |pieces[0]| {
          assert line[k] == rest[k - |pieces[0]| - 1];
        }
      }
    }
  }

  /** The numeral line of non-empty positions is already stripped and is not "all". */
  lemma FormatSelectionShape(positions: seq<nat>)
    requires positions != []
    ensures var line := FormatSelection(positions);
            Strip(line) == line && line != "" && Lower(line) != "all"
  {
    var pieces := Numerals1Based(positions);
    var line := FormatSelection(positions);
    JoinNumerals(pieces);
    assert |pieces| == 1 ==> line == pieces[0];
    assert |pieces| > 1 ==> line[..|pieces[0]|] == pieces[0];
    assert line != [] && NumeralChar(line[0]) && NumeralChar(line[|line| - 1]);
    assert Trimmed(line);
    assert Lower(line)[0] != 'a';
  }

  /** Typing back the numbers of any non-empty list of positions selects exactly
      those positions, in that order, repeats included. */
  lemma {:induction false} SelectionRoundTrip(positions: seq<nat>)
    requires positions != []
    ensures ParseSelection(FormatSelection(positions)) == Numbers(positions)
  {
    FormatSelectionShape(positions);
    SplitFormatted(positions);
    ParseNumerals(positions);
  }

  /** The comma pieces of a typed list are its numerals. */
  lemma SplitFormatted(positions: seq<nat>)
    requires positions != []
    ensures SplitOn(FormatSelection(positions), ',') == Numerals1Based(positions)
  {
    var pieces := Numerals1Based(positions);
    forall i | 0 <= i < |pieces| ensures ',' !in pieces[i] {
      assert AllDigits(pieces[i]);
    }
    SplitJoin(pieces, ',');
  }

  /** Each numeral reads back as its 1-based number. */
  lemma {:induction false} ParseNumerals(positions: seq<nat>)
    ensures ParseIndices(Numerals1Based(positions)) == Some(positions)
  {
    var pieces := Numerals1Based(positions);
    forall i | 0 <= i < |pieces| ensures ParseInt(pieces[i]) == Some(positions[i] + 1) {
      NumeralReads(positions[i] + 1);
    }
    var r := ParseIndices(pieces);
    assert forall i :: 0 <= i < |positions| ==> r.value[i] == positions[i];
    assert r.value == positions;
  }

  lemma NumeralReads(n: nat)
    ensures ParseInt(NatToString(n)) == Some(n)
  {
    ParseIntRoundTrip(n);
    assert IntToString(n) == NatToString(n);
  }
}

=== FILE: text.dfy ===
/**
 * The parts of Python's `str` API that the key manager relies on, written over
 * `seq<char>`: whitespace splitting and stripping, splitting on and joining with a
 * separator character, ASCII lower-casing, substring search and `str.replace`.
 * Whitespace is the ASCII set that the argument-less `str.split()` and
 * `str.strip()` recognise.
 */
module Text {

  predicate IsSpace(c: char) {
    c == ' ' || c == '\t' || c == '\n' || c == '\r' || c == '\U{B}' || c == '\U{C}'
  }

  /** No whitespace anywhere in `s`. */
  predicate NoSpace(s: string) {
    forall i :: 0 <= i < |s| ==> !IsSpace(s[i])
  }

  /** A whitespace-free, non-empty word: what `str.split()` yields. */
  predicate IsToken(s: string) {
    s != [] && NoSpace(s)
  }

  /** Neither end of `s` is whitespace: the shape `str.strip()` returns. */
  predicate Trimmed(s: string) {
    s == [] || (!IsSpace(s[0]) && !IsSpace(s[|s| - 1]))
  }

  // ---------------------------------------------------------------------------
  // strip()

  function TrimLeft(s: string): (r: string)
    ensures |r| <= |s|
    ensures r == [] || !IsSpace(r[0])
    ensures forall i :: 0 <= i < |s| - |r| ==> IsSpace(s[i])
    decreases |s|
  {
    if s != [] && IsSpace(s[0]) then TrimLeft(s[1..]) else s
  }

  function TrimRight(s: string): (r: string)
    ensures |r| <= |s|
    ensures r == [] || !IsSpace(r[|r| - 1])
    ensures forall i :: |r| <= i < |s| ==> IsSpace(s[i])
    decreases |s|
  {
    if s != [] && IsSpace(s[|s| - 1]) then TrimRight(s[..|s| - 1]) else s
  }

  /** Python's `s.strip()`: the whitespace at both ends removed, nothing else. */
  function Strip(s: string): (r: string)
    ensures Trimmed(r) && |r| <= |s|
    ensures Trimmed(s) ==> r == s
  {
    var t := TrimLeft(s);
    TrimRightIsPrefix(t);
    TrimRight(t)
  }

  lemma {:induction false} TrimLeftIsSuffix(s: string)
    ensures TrimLeft(s) == s[|s| - |TrimLeft(s)|..]
    decreases |s|
  {
    if s != [] && IsSpace(s[0]) {
      TrimLeftIsSuffix(s[1..]);
    }
  }

  lemma {:induction false} TrimRightIsPrefix(s: string)
    ensures TrimRight(s) == s[..|TrimRight(s)|]
    decreases |s|
  {
    if s != [] && IsSpace(s[|s| - 1]) {
      TrimRightIsPrefix(s[..|s| - 1]);
    }
  }

  /** Stripping only removes characters. */
  lemma StripKeepsOut(s: string, c: char)
    requires c !in s
    ensures c !in Strip(s)
  {
    var t := TrimLeft(s);
    TrimLeftIsSuffix(s);
    TrimRightIsPrefix(t);
    assert c !in t by {
      forall k | 0 <= k < |t| ensures t[k] != c {
        assert t[k] == s[|s| - |t| + k];
      }
    }
    var r := TrimRight(t);
    forall k | 0 <= k < |r| ensures r[k] != c {
      assert r[k] == t[k];
    }
  }

  // ---------------------------------------------------------------------------
  // split() with no argument

  /** The longest whitespace-free prefix of `s`. */
  function TakeWord(s: string): (w: string)
    ensures |w| <= |s|
    ensures NoSpace(w)
    ensures |w| == |s| || IsSpace(s[|w|])
    ensures s != [] && !IsSpace(s[0]) ==> w != []
    decreases |s|
  {
    if s == [] || IsSpace(s[0]) then [] else [s[0]] + TakeWord(s[1..])
  }

  /** Python's `s.split()`: the maximal runs of non-whitespace, in order. */
  function Words(s: string): (ws: seq<string>)
    ensures forall i :: 0 <= i < |ws| ==> IsToken(ws[i])
    decreases |s|
  {
    var t := TrimLeft(s);
    if t == [] then []
    else
      var w := TakeWord(t);
      assert IsToken(w);
      var rest := Words(t[|w|..]);
      [w] + rest
  }

  lemma {:induction false} TakeWordIsPrefix(s: string)
    ensures TakeWord(s) == s[..|TakeWord(s)|]
    decreases |s|
  {
    if s != [] && !IsSpace(s[0]) {
      TakeWordIsPrefix(s[1..]);
    }
  }

  lemma {:induction false} TrimLeftAppend(s: string, x: string)
    requires TrimLeft(s) != []
    ensures TrimLeft(s + x) == TrimLeft(s) + x
    decreases |s|
  {
    if IsSpace(s[0]) {
      assert (s + x)[1..] == s[1..] + x;
      TrimLeftAppend(s[1..], x);
    }
  }

  lemma {:induction false} TrimLeftBlankPrefix(s: string, x: string)
    requires TrimLeft(s) == []
    ensures TrimLeft(s + x) == TrimLeft(x)
    decreases |s|
  {
    if s != [] {
      assert (s + x)[1..] == s[1..] + x;
      TrimLeftBlankPrefix(s[1..], x);
    } else {
      assert s + x == x;
    }
  }

  lemma {:induction false} TakeWordAppend(t: string, x: string)
    requires |TakeWord(t)| < |t| || x == [] || IsSpace(x[0])
    ensures TakeWord(t + x) == TakeWord(t)
    decreases |t|
  {
    if t == [] {
      assert t + x == x;
    } else if !IsSpace(t[0]) {
      assert (t + x)[1..] == t[1..] + x;
      TakeWordAppend(t[1..], x);
    }
  }

  /** A word followed by whitespace (or by nothing) is split off as the first word. */
  lemma {:induction false} WordsOfToken(w: string, rest: string)
    requires IsToken(w)
    requires rest == [] || IsSpace(rest[0])
    ensures Words(w + rest) == [w] + Words(rest)
  {
    var s := w + rest;
    assert TrimLeft(s) == s;
    TakeWordAppend(w, rest);
    TakeWordIsPrefix(w);
    assert TakeWord(w) == w;
    assert s[|w|..] == rest;
  }

  /** Leading whitespace does not change the words. */
  lemma WordsSkipSpace(c: char, s: string)
    requires IsSpace(c)
    ensures Words([c] + s) == Words(s)
  {
    assert ([c] + s)[1..] == s;
  }

  /** Trailing whitespace does not change the words. */
  lemma {:induction false} WordsAppendSpace(s: string, c: char)
    requires IsSpace(c)
    ensures Words(s + [c]) == Words(s)
    decreases |s|
  {
    var t := TrimLeft(s);
    if t == [] {
      TrimLeftBlankPrefix(s, [c]);
      assert TrimLeft([c]) == [];
    } else {
      TrimLeftAppend(s, [c]);
      var w := TakeWord(t);
      TakeWordAppend(t, [c]);
      assert (t + [c])[|w|..] == t[|w|..] + [c];
      WordsAppendSpace(t[|w|..], c);
    }
  }

  lemma {:induction false} WordsTrimRight(s: string)
    ensures Words(TrimRight(s)) == Words(s)
    decreases |s|
  {
    if s != [] && IsSpace(s[|s| - 1]) {
      var p := s[..|s| - 1];
      assert s == p + [s[|s| - 1]];
      WordsAppendSpace(p, s[|s| - 1]);
      WordsTrimRight(p);
    }
  }

  /** `s.strip().split() == s.split()`: stripping before splitting changes nothing. */
  lemma {:induction false} WordsStrip(s: string)
    ensures Words(Strip(s)) == Words(s)
  {
    var t := TrimLeft(s);
    assert TrimLeft(t) == t;
    WordsTrimRight(t);
  }

  // ---------------------------------------------------------------------------
  // split(sep) and sep.join(...)

  /** Python's `sep.join(pieces)` for a one-character separator. */
  function Join(pieces: seq<string>, sep: char): string
    decreases |pieces|
  {
    if pieces == [] then ""
    else if |pieces| == 1 then pieces[0]
    else pieces[0] + [sep] + Join(pieces[1..], sep)
  }

  /** Python's `s.split(sep)` for a one-character separator: never an empty list,
      and joining the pieces back gives `s`. */
  function SplitOn(s: string, sep: char): (pieces: seq<string>)
    ensures |pieces| >= 1
    ensures forall i :: 0 <= i < |pieces| ==> sep !in pieces[i]
    ensures Join(pieces, sep) == s
    decreases |s|
  {
    if s == [] then [""]
    else
      var rest := SplitOn(s[1..], sep);
      if s[0] == sep then
        assert Join([""] + rest, sep) == [sep] + Join(rest, sep) by {
          assert ([""] + rest)[1..] == rest;
        }
        [""] + rest
      else
        var first := [s[0]] + rest[0];
        assert Join([first] + rest[1..], sep) == [s[0]] + Join(rest, sep) by {
          assert ([first] + rest[1..])[1..] == rest[1..];
        }
        [first] + rest[1..]
  }

  lemma {:induction false} SplitOnNoSep(x: string, sep: char)
    requires sep !in x
    ensures SplitOn(x, sep) == [x]
    decreases |x|
  {
    if x != [] {
      assert sep !in x[1..];
      SplitOnNoSep(x[1..], sep);
    }
  }

  lemma {:induction false} SplitOnConcat(x: string, sep: char, y: string)
    ensures SplitOn(x + [sep] + y, sep) == SplitOn(x, sep) + SplitOn(y, sep)
    decreases |x|
  {
    var s := x + [sep] + y;
    if x == [] {
      assert s == [sep] + y;
      assert s[1..] == y;
    } else {
      assert s[1..] == x[1..] + [sep] + y;
      SplitOnConcat(x[1..], sep, y);
    }
  }

  /** Splitting what was joined gives back the pieces, when no piece holds the separator. */
  lemma {:induction false} SplitJoin(pieces: seq<string>, sep: char)
    requires pieces != []
    requires forall i :: 0 <= i < |pieces| ==> sep !in pieces[i]
    ensures SplitOn(Join(pieces, sep), sep) == pieces
    decreases |pieces|
  {
    if |pieces| == 1 {
      SplitOnNoSep(pieces[0], sep);
    } else {
      SplitOnConcat(pieces[0], sep, Join(pieces[1..], sep));
      SplitOnNoSep(pieces[0], sep);
      SplitJoin(pieces[1..], sep);
    }
  }

  // ---------------------------------------------------------------------------
  // lower()

  function LowerChar(c: char): char {
    if 'A' <= c <= 'Z' then (c as int + 32) as char else c
  }

  /** Python's `s.lower()`, restricted to ASCII letters. */
  function Lower(s: string): string {
    seq(|s|, i requires 0 <= i < |s| => LowerChar(s[i]))
  }

  // ---------------------------------------------------------------------------
  // startswith, `in`, replace

  predicate StartsWith(s: string, prefix: string) {
    |prefix| <= |s| && s[..|prefix|] == prefix
  }

  /** Python's `needle in hay`, scanning from the left. */
  predicate Contains(hay: string, needle: string)
    decreases |hay|
  {
    StartsWith(hay, needle) || (hay != [] && Contains(hay[1..], needle))
  }

  /** `needle` occurs in `hay` starting at position `i`. */
  predicate OccursAt(hay: string, needle: string, i: int) {
    0 <= i <= |hay| - |needle| && hay[i..i + |needle|] == needle
  }

  /** The scan agrees with the textbook definition of a substring. */
  lemma {:induction false} ContainsAt(hay: string, needle: string)
    ensures Contains(hay, needle) <==> exists i :: OccursAt(hay, needle, i)
    decreases |hay|
  {
    if StartsWith(hay, needle) {
      assert OccursAt(hay, needle, 0);
    } else if hay != [] {
      ContainsAt(hay[1..], needle);
      if Contains(hay[1..], needle) {
        var i :| OccursAt(hay[1..], needle, i);
        assert OccursAt(hay, needle, i + 1);
      } else {
        forall i | OccursAt(hay, needle, i) ensures false {
          assert i != 0;
          assert OccursAt(hay[1..], needle, i - 1);
        }
      }
    }
  }

  /** A character the text lacks rules out every needle that has it. */
  lemma MissingCharNotContained(hay: string, needle: string, c: char)
    requires c in needle && c !in hay
    ensures !Contains(hay, needle)
  {
    ContainsAt(hay, needle);
    var k :| 0 <= k < |needle| && needle[k] == c;
    forall i | 0 <= i <= |hay| - |needle| ensures !OccursAt(hay, needle, i) {
      assert hay[i..i + |needle|][k] == hay[i + k] != c;
    }
  }

  /** Python's `s.replace(pat, rep)`: every non-overlapping occurrence of `pat`,
      found left to right, is replaced; removing leaves at most the original length. */
  function ReplaceAll(s: string, pat: string, rep: string): (r: string)
    requires pat != []
    ensures rep == [] ==> |r| <= |s|
    decreases |s|
  {
    if |s| < |pat| then s
    else if s[..|pat|] == pat then rep + ReplaceAll(s[|pat|..], pat, rep)
    else [s[0]] + ReplaceAll(s[1..], pat, rep)
  }

  /** Text without an occurrence is left as it is. */
  lemma {:induction false} ReplaceAllAbsent(s: string, pat: string, rep: string)
    requires pat != [] && !Contains(s, pat)
    ensures ReplaceAll(s, pat, rep) == s
    decreases |s|
  {
    if |s| >= |pat| {
      ReplaceAllAbsent(s[1..], pat, rep);
    }
  }

  /** The text of `s` before the first occurrence of `sep`, or all of `s`: the piece
      `s.split(sep)[0]`. */
  function UpTo(s: string, sep: string): (r: string)
    requires sep != []
    ensures StartsWith(s, r)
    decreases |s|
  {
    if s == [] || StartsWith(s, sep) then [] else [s[0]] + UpTo(s[1..], sep)
  }

  /** Without a separator, the first piece is the whole text. */
  lemma {:induction false} UpToAbsent(s: string, sep: string)
    requires sep != [] && !Contains(s, sep)
    ensures UpTo(s, sep) == s
    decreases |s|
  {
    if s != [] {
      UpToAbsent(s[1..], sep);
    }
  }
}

=== FILE: wrappers.dfy ===
/** Optional values, standing for Python's `None` results. */
module Wrappers {

  datatype Option<+T> = None | Some(value: T) {

    /** The wrapped value, or `default` when there is none (Python's `dict.get(k, default)`). */
    function GetOr(default: T): T {
      match this
      case Some(v) => v
      case None => default
    }
  }
}
